=== FILE: README.md ===
# Tippy: a verified model of the tip pipeline

Tippy is a football value-betting assistant. Each run reads the fixtures of the coming seven
days, turns team ratings into home, draw and away probabilities, and fetches the best
decimal odds bookmakers offer. For each fixture it keeps the outcome with the largest
*edge*, which is the percentage by which the offered odds beat the fair odds `100 / prob`.
It emits a tip when that edge reaches the configured minimum. The tip gets a confidence tier
and a capped fractional-Kelly stake. Tips are stored, settled from the previous day's
results each time settlement runs, and summed into a performance record (hit rate and return
on investment).

This project models that pipeline in Dafny, module by module:

- `Types` holds the fixtures, tips and outcomes, and the configuration record (`min_edge`,
  `kelly_fraction`, `max_kelly_pct`, `bankroll`). It also reads a stored prediction back as
  an outcome.
- `Probabilities` covers the draw complement and normalisation step of `fetch_matches`.
- `Odds` is the best-price join of `fetch_odds`:
  - per event, the best "1", "X" and "2" prices over every bookmaker's head-to-head market;
  - the lookup of the events whose prices sum to more than 0, where a later event with the
    same team pair overwrites an earlier one;
  - the in-place update of the fixtures' odds, over an array.

  The away branch reads the key `"Name"` rather than `"name"`. The model keeps this as
  written: an outcome that is neither "Home" nor "Draw" and has no `"Name"` key raises, and
  the whole odds step is abandoned, leaving every fixture as it was.
- `Pricing` is the per-fixture arithmetic: edge, first-maximum scan, confidence ladder and
  the clamped Kelly stake.
- `TipGenerator` is `generate_tips`: the loop over fixtures, then the stable sort by
  decreasing edge, done in place on an array.
- `Settlement` covers two steps of `update_results`:
  - building the results dictionary from the feed: a final score becomes "1", "X" or "2",
    and a later match with the same team pair overwrites an earlier one;
  - settling each pending tip row.
- `Schema` is the column layout of the tips table and the columns the settlement statement
  writes.
- `Store` is a class `TipStore` holding the tips table (a sequence of named rows) and the
  performance history. Its methods are `Settle`, `UpdateResults`, `UpdatePerformance`
  and `GetPerformance`.

Numbers are Dafny `real`, which is exact. Each loop of the source is a method proved
against a function that specifies it; the properties are proved about those functions.

## Model

| member | source | states |
|---|---|---|
| Types.OutcomeOfPrediction | app.py:469-470 | A prediction other than "Draw" or "Away Win" reads as a home win; a non-home outcome is read only from its own label |
| Types.PredictionRoundTrip | app.py:377-381 | Reading back the label written for an outcome gives that outcome |
| Types.PredictionLabelInjective | app.py:377 | The three prediction labels are distinct |
| Probabilities.Normalise | app.py:248-254 | After the draw complement the three percentages sum to exactly 100 and home/away are unchanged; the draw is negative iff the two likelihoods exceed 1 |
| Pricing.Edge | app.py:351-354 | The edge of a bet equals its expected profit in percent of the stake, `odds * prob - 100` |
| Pricing.BestBet | app.py:346-358 | The scan keeps the first bet with the largest edge, provided it beats -100; it keeps none exactly when every edge is at most -100 |
| Pricing.ChooseBet | app.py:346-358 | The loop returns the bet BestBet chooses, together with its edge (or -100 when none) |
| Pricing.Classify | app.py:364-369 | HIGH iff edge >= 25 and prob >= 60; MEDIUM iff not HIGH and (edge >= 15 or prob >= 50); LOW iff edge < 15 and prob < 50 |
| Pricing.ClassifyMonotone | app.py:364-369 | A larger edge and probability never give a lower tier |
| Pricing.Multiplier | app.py:372 | Each tier's stake multiplier lies in (0, 1] |
| Pricing.MultiplierMonotone | app.py:372 | A higher tier never has a smaller multiplier |
| Pricing.KellyFraction | app.py:373 | The Kelly fraction times 100 (odds - 1) is the edge |
| Pricing.KellyPositiveIffEdge | app.py:373 | At odds above 1 the Kelly fraction is positive iff the edge is positive |
| Pricing.Stake | app.py:372-375 | The stake is the point of [0, max_kelly_pct] nearest the scaled Kelly value: it equals that value inside the interval, 0 below it, the cap above it, and 0 for a negative cap |
| TipGenerator.NewTip | app.py:363-387 | The tip record built for a chosen bet: its tier, its capped Kelly stake as percent and units, pending with no result; its properties are stated through TipFor, StakeBounds and MediumHomeTip |
| TipGenerator.ScanPicksFirstBest | app.py:346-358 | The scan over the three bets ends on the first outcome with the largest edge, and on none exactly when that edge does not beat -100 |
| TipGenerator.TipFor | app.py:336-389 | For a fixture with known odds, a tip is emitted iff the best edge beats -100 and reaches min_edge. The tip is on the first best outcome, with that edge, odds and tier, and is pending with no outcome, score or win yet. kelly_pct is 100 times, and kelly_units the bankroll times, the capped Kelly stake of that bet and tier. A fixture with home odds 0 gives none |
| TipGenerator.StakeBounds | app.py:372-387 | A tip staking a capped Kelly fraction has kelly_pct >= 0 and, on a non-negative bankroll, kelly_units >= 0; for a non-negative cap, kelly_pct <= 100 max_kelly_pct and (on a non-negative bankroll) kelly_units <= max_kelly_pct bankroll |
| TipGenerator.TipStakeInRange | app.py:372-387 | The stake of every emitted tip obeys the same bounds: kelly_pct >= 0, kelly_units >= 0 on a non-negative bankroll, and for a non-negative cap the upper bounds 100 max_kelly_pct and max_kelly_pct bankroll |
| TipGenerator.Candidates | app.py:333-389 | The loop appends at most one tip per fixture |
| TipGenerator.CandidatesFromFixtures | app.py:335-389 | Every appended tip is the tip of some fixture |
| TipGenerator.FixturesReachCandidates | app.py:335-389 | Every fixture that yields a tip contributes it |
| TipGenerator.CandidatesMeetThreshold | app.py:336-337 | Every appended tip reaches min_edge and comes from a fixture with known home odds |
| TipGenerator.InsertPermutes | app.py:392 | Inserting a tip into a list adds exactly that tip |
| TipGenerator.InsertKeepsSorted | app.py:392 | Inserting into a list sorted by decreasing edge keeps it sorted |
| TipGenerator.SortByEdge | app.py:392 | The stable sort by decreasing edge, as repeated insertion; it keeps the length, and SortByEdgeCorrect and SortByEdgeStable state the rest |
| TipGenerator.SortByEdgeCorrect | app.py:392 | The sort yields a list ordered by non-increasing edge that is a permutation of its input |
| TipGenerator.SortSortedIsIdentity | app.py:392 | A list already in order is left as it is |
| TipGenerator.InsertWithEdge | app.py:392 | Inserting a tip puts it after every tip of equal edge already in the list |
| TipGenerator.SortByEdgeStable | app.py:392 | The sort is stable: for every edge value, the tips with that edge appear in the same order as in the input |
| TipGenerator.SortTipsByEdge | app.py:392 | The in-place sort of an array leaves it holding SortByEdge of its old contents |
| TipGenerator.InsertLast | app.py:392 | One insertion pass places element i into the sorted prefix and leaves the rest of the array untouched |
| TipGenerator.GenerateTips | app.py:331-394 | The result is the candidates sorted by decreasing edge: sorted, a permutation of the candidates, no longer than the fixture list, and every tip meets min_edge |
| TipGenerator.MediumHomeTip | app.py:340-387 | A 60/25/15 fixture at 2.0/3.5/5.0 under the default configuration gives a MEDIUM "Home Win" tip with edge 20 staking 4.9% (49 units) |
| Odds.CeilingIsMaximum | app.py:308-312 | Folding max from a start value gives the maximum of the start value and the quotes |
| Odds.AbsorbAllIsCeiling | app.py:306-312 | Absorbing outcomes fails iff one of them is faulty; otherwise each best price is the fold of max over that side's quotes |
| Odds.H2HOutcomesAreTheH2HMarkets | app.py:303-306 | The outcomes visited are exactly those of some bookmaker's "h2h" market |
| Odds.MarketOutcomesMembers | app.py:304-306 | Within one bookmaker, the outcomes visited are exactly those of its "h2h" markets |
| Odds.BestPrices | app.py:301-312 | The best "1", "X" and "2" prices of one event, or failure on a faulty outcome; BestPricesAreMaxima states what they are |
| Odds.BestPricesAreMaxima | app.py:301-312 | Each best price is the largest h2h quote for its side across all bookmakers, or 0 when there is none; an event fails iff some visited outcome is faulty |
| Odds.AbsorbOutcomes | app.py:306-312 | The loop over one market's outcomes computes AbsorbAll |
| Odds.AbsorbMarkets | app.py:304-312 | The loop over one bookmaker's markets absorbs their h2h outcomes in order |
| Odds.CollectBestPrices | app.py:301-312 | The nested loops over one event compute its best prices |
| Odds.OddsLookup | app.py:297-315 | The lookup from team pair to best prices over a feed; OddsLookupSound and OddsLookupLastWins state what it holds |
| Odds.BuildOddsLookup | app.py:297-315 | The loop over events builds OddsLookup |
| Odds.LookupFromSound | app.py:297-315 | The lookup fails iff some event fails; otherwise every entry is the best prices of an event with that key and sums to more than 0, and every such event's key is present |
| Odds.OddsLookupSound | app.py:297-315 | The same for the lookup of a whole feed |
| Odds.LookupFromLastWins | app.py:297-315 | A later event with the same team pair overwrites an earlier one: a pair's entry is the best prices of the last event with that pair whose prices sum to more than 0 |
| Odds.OddsLookupLastWins | app.py:297-315 | The same for the lookup of a whole feed |
| Odds.WithOdds | app.py:318-324 | A fixture whose (home, away) pair is absent keeps its odds; otherwise it takes the three best prices; no other field changes |
| Odds.ApplyOdds | app.py:318-324 | Every fixture in the array is updated as WithOdds says |
| Odds.FetchOdds | app.py:280-329 | Without a response, or when the lookup fails, the fixtures are unchanged; otherwise each is joined with the lookup |
| Settlement.OutcomeOfScore | app.py:447-452 | "1" iff home goals exceed away goals, "2" iff away exceed home, "X" iff level |
| Settlement.OutcomeOfScoreSymmetric | app.py:447-452 | Swapping the two goal counts swaps the home and away results |
| Settlement.Results | app.py:440-457 | The dictionary from team pair to result over a feed; ResultsSound and ResultsLastWins state what it holds |
| Settlement.CollectResults | app.py:440-457 | The loop over the feed computes Results |
| Settlement.ResultsFromSound | app.py:440-457 | Collection fails iff a finished match has a home count and no away count; otherwise each entry is the result of a finished match with that team pair, and every such match's pair is present |
| Settlement.ResultsSound | app.py:440-457 | The same for the results of a whole feed |
| Settlement.ResultsFromLastWins | app.py:440-457 | A later match with the same team pair overwrites an earlier one: a pair's entry is the result of the last finished match with that pair and a home score |
| Settlement.ResultsLastWins | app.py:440-457 | The same for the results of a whole feed |
| Settlement.SettleRow | app.py:460-481 | Only a pending row with a result changes. It becomes resulted with the outcome and score, and wins iff its prediction read back equals the outcome. A resulted row never reopens, and no other field changes |
| Settlement.SettleRowIdempotent | app.py:460-481 | Settling a row twice with the same results is settling it once |
| Settlement.SettleAll | app.py:460-481 | The settled table has the same length, and each row is settled on its own |
| Settlement.SettleAllNothingDue | app.py:460-466 | With no pending row in the results, the table is unchanged |
| Settlement.WhereIdIsPositional | app.py:474-481 | With distinct ids, updating the rows whose id is that of row i replaces row i and nothing else, and keeps the ids distinct when the new row keeps its id |
| Settlement.SettleAllIdempotent | app.py:460-481 | Settling the table twice is settling it once |
| Settlement.SettleAsWritten | app.py:474-486 | As written, the settlement transaction fails iff an UPDATE is issued and the table lacks one of its columns |
| Settlement.AsWrittenNothingSettles | app.py:474-488 | As written, the tips table is the same after settlement whatever the results |
| Settlement.AsWrittenLosesResult | app.py:460-481 | A pending home-win tip whose fixture ended 2-1 stays pending as written, and SettleAll settles it as a win |
| Schema.ColumnPositions | app.py:81-98 | Positions 1, 2, 5, 9, 10, 11 and 14 of a tips row are home_team, away_team, prediction, kelly_units, odds, status and created_at |
| Schema.SettleUpdateRejected | app.py:81-98 | The tips table has no `win` column, so the settlement statement is rejected |
| Store.ResultedRows | app.py:496-497 | The resulted rows are exactly the table's rows with status resulted, and no more of them than rows |
| Store.PendingCount | app.py:548 | At most all rows are pending |
| Store.StatusCountsAddUp | app.py:546-560 | Pending plus resulted rows make up the whole table |
| Store.Wins | app.py:547 | There are no more wins than rows, and none exactly when no row won |
| Store.Roi | app.py:508-513 | The profit over the resulted rows in table order; RoiSplit, RoiBounds and TotalProfit state its value |
| Store.RoiSplit | app.py:508-513 | The ROI is the winners' units times (odds - 1) minus the losers' units |
| Store.RoiBounds | app.py:508-513 | With non-negative stakes at odds of at least 1, the loss is at most the total staked, and exactly that when nothing won |
| Store.TotalProfit | app.py:508-513 | The ROI loop computes Roi |
| Store.Percent | app.py:505 | part / whole * 100: the percentage times whole is 100 times part; it lies in [0, 100] and is 100 exactly when part is whole |
| Store.OfBankroll | app.py:515 | roi_pct times the bankroll is 100 times the ROI |
| Store.Performance | app.py:503-524 | The recorded snapshot has total, wins <= total, accuracy = wins / total * 100 (so in [0, 100], and 100 iff all won), roi and profit equal to Roi, and roi_pct = roi / bankroll * 100 |
| Store.LatestFirst | app.py:541-542 | The history holds the last min(n, length) snapshots, newest first |
| Store.HitRate | app.py:562 | The summary's accuracy is wins / resulted * 100: it times the resulted count is 100 times the wins; it lies in [0, 100], is 0 without resulted tips, and is 100 iff every resulted tip won |
| Store.Report | app.py:546-566 | The summary counts the table: total is its size, pending and resulted count those rows and add up to the total. wins counts the resulted rows that won (at most resulted), roi is their profit, and accuracy is their hit rate in [0, 100]. With no resulted tips, accuracy and ROI are 0. roi_pct = roi / bankroll * 100. The history is the newest min(30, n) snapshots, newest first, each equal to its stored snapshot |
| Store.DueCount | app.py:460-466 | No more rows are settled than are pending |
| Store.SettleResultedCount | app.py:460-481 | Settlement moves exactly the due rows from pending to resulted |
| Store.TipStore.constructor | app.py:81-98 | A store starts with the given distinct-id rows and the given performance history |
| Store.TipStore.Settle | app.py:460-481 | Each due row is updated by id, which with distinct ids is that row alone. The table becomes SettleAll of the old table, ids stay distinct and the history is untouched |
| Store.TipStore.UpdateResults | app.py:417-489 | Without a feed, or with a finished match lacking an away score, no row changes; otherwise the table is settled against the feed's results; then a snapshot is appended iff some row is resulted |
| Store.TipStore.UpdatePerformance | app.py:491-528 | Without resulted rows nothing changes; otherwise the table is kept and exactly the snapshot Performance is appended |
| Store.TipStore.GetPerformance | app.py:530-566 | Returns Report of the table, the history and the bankroll, changing nothing |
| Store.WinsAsWritten | app.py:503 | As written, no more wins are counted than rows |
| Store.AsWrittenEveryTipWins | app.py:503 | As written, every time-stamped resulted tip counts as a win |
| Store.AsWrittenRoiBooksEveryStakeWon | app.py:508-513 | As written, with every resulted tip time-stamped, the ROI is the sum of units times (odds - 1): every stake is booked as won |
| Store.AsWrittenCountsLossAsWin | app.py:503-513 | A settled losing tip counts as a win as written, and not by its win flag. Its lost 20 units are booked as a 60-unit profit, where Roi gives -20 |

## Findings

| source | as written | input that shows it | evidently intended | confidence | as-written member | corrected member |
|---|---|---|---|---|---|---|
| app.py:474-481 | The settlement UPDATE assigns a `win` column, which the tips table created at app.py:81-98 does not have. The statement raises, the broad handler swallows the error, and the transaction is never committed. | A pending "Home Win" tip for Arsenal v Chelsea with a finished 2-1 result for that pair | The tip becomes resulted with outcome "1", score 2-1 and win true | high; not executed | Settlement.AsWrittenNothingSettles | Settlement.SettleAll |
| app.py:503, app.py:510, app.py:547, app.py:552 | The win flag is read as `t[14]`, which is the `created_at` timestamp. It is truthy for every tip save_tip stored, so every resulted tip counts as a win and its stake as won (Store.AsWrittenRoiBooksEveryStakeWon). | A resulted losing tip (win false) with a creation timestamp | A tip counts as won only when its win flag is true | high; not executed | Store.AsWrittenEveryTipWins | Store.Wins |

The rest of the model uses the corrected definitions: rows carry a named `win` field,
which settlement sets and the aggregation reads.

## Left out

- HTTP requests, the JSON decoding of responses, SQLite connections and DDL, `save_tip`,
  `datetime.now()` and the console output are I/O. A response is a parameter (`None` for a
  non-200 answer), and the tables are fields of `TipStore`.
- Other exceptions inside a response's loops (a missing `"score"` key and the like) are not
  modelled; the feed records have every field.
- The Poisson likelihoods and the goals heuristic of `fetch_matches` use floating-point
  exponentials and factorials. Their results are inputs to `Probabilities.Normalise` and to
  the fixtures.
- Rounding with `round(...)` is float formatting and is left out. Probabilities, edge,
  kelly_pct, kelly_units, accuracy, ROI and roi_pct are the unrounded reals, so the sort
  orders by the unrounded edge.
- The textual forms are abstracted: outcome codes "1", "X" and "2" are `Outcome`, and the
  score string "hg-ag" is a `Score` pair.
- The stored row's date of a performance snapshot is left out.
- The date windows of the requests (fixtures of the next seven days, results of the day
  before the run) are inputs: the fixtures and the results feed are parameters. A tip whose
  match day is not the day before some settlement run stays pending.
- Pricing.Edge: requires a non-zero probability, because the source divides by it.
- TipGenerator.TipFor: requires, on a fixture with known odds, non-zero probabilities
  and odds other than 1 on a bet that becomes a tip, because the source divides by both.
  The requirement is stated through `Computable`.
- Store.TipStore.UpdateResults: requires a non-zero bankroll. The source fails on a zero
  bankroll only once some tip is resulted; `UpdatePerformance` states that exact condition.
- Store.TipStore.GetPerformance: requires a non-zero bankroll, because roi_pct divides by it.
- Python objects are shared by reference, so the fixtures updated by `fetch_odds` are the
  ones later stored in tips. The model passes values, and tips hold a copy of their fixture.
- `get_analytics`, `run_analysis`, the team and league loaders and the `min_confidence`
  setting are not part of the pipeline modelled here.
- `web_server.py`, `add_demo_tips.py`, `update_tips.py`, `test_app.py`,
  `push_to_github.py`, `deploy.py` and `run.py` are not part of this model. They are web
  routing, demo data, HTTP clients and deployment scripts.
- The `threading` import is unused.

=== FILE: odds.dfy ===
/** The best-price odds join of BettingApp.fetch_odds (app.py:297-324): the best
    decimal price per outcome over every bookmaker's head-to-head market, a lookup by
    (home, away) team pair, and the in-place update of the fixtures found in it. */
module Odds {
  import opened Types

  /** One priced outcome of a market. `name` is the value under the key "name";
      `capitalName` is the value under the key "Name", which the away branch reads. */
  datatype PriceOutcome = PriceOutcome(name: string, capitalName: Option<string>, price: real)

  datatype Market = Market(key: string, outcomes: seq<PriceOutcome>)

  datatype Bookmaker = Bookmaker(markets: seq<Market>)

  /** One event of the odds feed. */
  datatype Event = Event(homeTeam: string, awayTeam: string, bookmakers: seq<Bookmaker>)

  /** Best prices for "1", "X" and "2". */
  datatype Prices = Prices(home: real, draw: real, away: real)

  const NoPrices: Prices := Prices(0.0, 0.0, 0.0)

  /** The outcomes of the head-to-head ("h2h") markets among `ms`, in feed order. */
  function MarketOutcomes(ms: seq<Market>): seq<PriceOutcome>
  {
    if ms == [] then []
    else (if ms[0].key == "h2h" then ms[0].outcomes else []) + MarketOutcomes(ms[1..])
  }

  /** The head-to-head outcomes of every bookmaker, in the order the loops visit them. */
  function H2HOutcomes(bs: seq<Bookmaker>): seq<PriceOutcome>
  {
    if bs == [] then [] else MarketOutcomes(bs[0].markets) + H2HOutcomes(bs[1..])
  }

  /** An outcome named neither "Home" nor "Draw" and without a "Name" key: reading
      outcome["Name"] raises KeyError. */
  predicate Faulty(o: PriceOutcome)
  {
    o.name != "Home" && o.name != "Draw" && o.capitalName.None?
  }

  /** One step of app.py:307-312; None is the KeyError. */
  function Absorb(p: Prices, o: PriceOutcome): (r: Option<Prices>)
  {
    if o.name == "Home" then Some(p.(home := Max(p.home, o.price)))
    else if o.name == "Draw" then Some(p.(draw := Max(p.draw, o.price)))
    else if o.capitalName.None? then None
    else if o.capitalName.value == "Away" then Some(p.(away := Max(p.away, o.price)))
    else Some(p)
  }

  /** Absorbs the outcomes one by one, failing at the first faulty one. */
  function AbsorbAll(p: Prices, os: seq<PriceOutcome>): Option<Prices>
    decreases |os|
  {
    if os == [] then Some(p)
    else
      match Absorb(p, os[0])
      case None => None
      case Some(q) => AbsorbAll(q, os[1..])
  }

  /** The best_odds dictionary of an event after its loops, or None if they raised. */
  function BestPrices(e: Event): Option<Prices>
  {
    AbsorbAll(NoPrices, H2HOutcomes(e.bookmakers))
  }

  /** The prices quoted for an outcome: "Home" and "Draw" by the "name" key, the away
      side by the "Name" key of an outcome that is neither. */
  function QuotesFor(os: seq<PriceOutcome>, side: Outcome): seq<real>
  {
    if os == [] then []
    else
      var o := os[0];
      var counts := match side
        case Home => o.name == "Home"
        case Draw => o.name == "Draw"
        case Away => o.name != "Home" && o.name != "Draw" && o.capitalName == Some("Away");
      (if counts then [o.price] else []) + QuotesFor(os[1..], side)
  }

  /** The largest of v and the values xs. */
  function Ceiling(v: real, xs: seq<real>): real
    decreases |xs|
  {
    if xs == [] then v else Ceiling(Max(v, xs[0]), xs[1..])
  }

  /** Ceiling(v, xs) is the maximum of v and xs: no smaller than any of them and equal to one. */
  lemma {:induction false} CeilingIsMaximum(v: real, xs: seq<real>)
    ensures Ceiling(v, xs) >= v
    ensures forall x :: x in xs ==> x <= Ceiling(v, xs)
    ensures Ceiling(v, xs) == v || Ceiling(v, xs) in xs
    decreases |xs|
  {
    if xs != [] {
      CeilingIsMaximum(Max(v, xs[0]), xs[1..]);
      assert xs == [xs[0]] + xs[1..];
    }
  }

  /** Absorbing outcomes fails exactly when one is faulty; otherwise each price is the
      running maximum of its start value and the quotes for that side. */
  lemma {:induction false} AbsorbAllIsCeiling(p: Prices, os: seq<PriceOutcome>)
    ensures AbsorbAll(p, os).None? <==> exists k :: 0 <= k < |os| && Faulty(os[k])
    ensures AbsorbAll(p, os).Some? ==>
      AbsorbAll(p, os).value == Prices(Ceiling(p.home, QuotesFor(os, Home)),
                                       Ceiling(p.draw, QuotesFor(os, Draw)),
                                       Ceiling(p.away, QuotesFor(os, Away)))
    decreases |os|
  {
    if os != [] {
      var o := os[0];
      match Absorb(p, o)
      case None =>
        assert Faulty(os[0]);
      case Some(q) =>
        AbsorbAllIsCeiling(q, os[1..]);
        assert !Faulty(o);
        QuotesStep(p, os, Home);
        QuotesStep(p, os, Draw);
        QuotesStep(p, os, Away);
        assert (exists k :: 0 <= k < |os| && Faulty(os[k])) <==> (exists k :: 0 <= k < |os[1..]| && Faulty(os[1..][k])) by {
          forall k | 0 <= k < |os| && Faulty(os[k]) ensures 0 <= k - 1 < |os[1..]| && Faulty(os[1..][k - 1]) {
          }
          forall k | 0 <= k < |os[1..]| && Faulty(os[1..][k]) ensures Faulty(os[k + 1]) {
          }
        }
    }
  }

  /** Absorbing the first outcome is taking the ceiling over its quote, side by side. */
  lemma QuotesStep(p: Prices, os: seq<PriceOutcome>, side: Outcome)
    requires os != [] && Absorb(p, os[0]).Some?
    ensures var q := Absorb(p, os[0]).value;
      Ceiling(Pick(p, side), QuotesFor(os, side)) == Ceiling(Pick(q, side), QuotesFor(os[1..], side))
  {
    var rest := QuotesFor(os[1..], side);
    var here := QuotesFor(os, side);
    if here == rest {
    } else {
      assert here == [os[0].price] + rest;
      assert here[1..] == rest;
    }
  }

  function Pick(p: Prices, side: Outcome): real
  {
    match side
    case Home => p.home
    case Draw => p.draw
    case Away => p.away
  }

  /** Every head-to-head outcome that can fail the event, as the feed lists it. */
  lemma {:induction false} H2HOutcomesAreTheH2HMarkets(bs: seq<Bookmaker>, o: PriceOutcome)
    ensures o in H2HOutcomes(bs) <==>
      exists b, m :: b in bs && m in b.markets && m.key == "h2h" && o in m.outcomes
  {
    if bs != [] {
      H2HOutcomesAreTheH2HMarkets(bs[1..], o);
      MarketOutcomesMembers(bs[0].markets, o);
      assert forall b :: b in bs <==> b == bs[0] || b in bs[1..] by {
        assert bs == [bs[0]] + bs[1..];
      }
    }
  }

  lemma {:induction false} MarketOutcomesMembers(ms: seq<Market>, o: PriceOutcome)
    ensures o in MarketOutcomes(ms) <==> exists m :: m in ms && m.key == "h2h" && o in m.outcomes
  {
    if ms != [] {
      MarketOutcomesMembers(ms[1..], o);
      assert forall m :: m in ms <==> m == ms[0] || m in ms[1..] by {
        assert ms == [ms[0]] + ms[1..];
      }
    }
  }

  /** Each best price is the largest quote for its side across all bookmakers' h2h markets,
      or 0 when there is none (or none above 0); the event fails exactly when an h2h
      outcome is faulty. */
  lemma BestPricesAreMaxima(e: Event)
    ensures var os := H2HOutcomes(e.bookmakers);
      BestPrices(e).None? <==> exists k :: 0 <= k < |os| && Faulty(os[k])
    ensures BestPrices(e).Some? ==>
      var p, os := BestPrices(e).value, H2HOutcomes(e.bookmakers);
      && IsBestQuote(p.home, QuotesFor(os, Home))
      && IsBestQuote(p.draw, QuotesFor(os, Draw))
      && IsBestQuote(p.away, QuotesFor(os, Away))
  {
    var os := H2HOutcomes(e.bookmakers);
    AbsorbAllIsCeiling(NoPrices, os);
    CeilingIsMaximum(0.0, QuotesFor(os, Home));
    CeilingIsMaximum(0.0, QuotesFor(os, Draw));
    CeilingIsMaximum(0.0, QuotesFor(os, Away));
  }

  /** v is the maximum of 0 and the quotes xs. */
  predicate IsBestQuote(v: real, xs: seq<real>)
  {
    v >= 0.0 && (forall x :: x in xs ==> x <= v) && (v == 0.0 || v in xs)
  }

  lemma BookmakerStep(bms: seq<Bookmaker>, i: nat)
    requires i < |bms|
    ensures H2HOutcomes(bms[i..]) == MarketOutcomes(bms[i].markets) + H2HOutcomes(bms[i + 1..])
  {
    assert bms[i..][1..] == bms[i + 1..];
  }

  lemma MarketStep(mks: seq<Market>, j: nat)
    requires j < |mks|
    ensures mks[j].key == "h2h" ==> MarketOutcomes(mks[j..]) == mks[j].outcomes + MarketOutcomes(mks[j + 1..])
    ensures mks[j].key != "h2h" ==> MarketOutcomes(mks[j..]) == MarketOutcomes(mks[j + 1..])
  {
    assert mks[j..][1..] == mks[j + 1..];
    if mks[j].key != "h2h" {
      assert MarketOutcomes(mks[j..]) == [] + MarketOutcomes(mks[j + 1..]);
    }
  }

  /** Absorbing xs + ys is absorbing xs, then ys from where xs left off. */
  lemma {:induction false} AbsorbAllAppend(p: Prices, xs: seq<PriceOutcome>, ys: seq<PriceOutcome>)
    ensures AbsorbAll(p, xs + ys) ==
      match AbsorbAll(p, xs)
      case None => None
      case Some(q) => AbsorbAll(q, ys)
    decreases |xs|
  {
    if xs == [] {
      assert xs + ys == ys;
    } else {
      assert (xs + ys)[1..] == xs[1..] + ys;
      match Absorb(p, xs[0])
      case None =>
      case Some(q) => AbsorbAllAppend(q, xs[1..], ys);
    }
  }

  /** The innermost loop of app.py:306-312, over the outcomes of one h2h market. */
  method AbsorbOutcomes(p: Prices, os: seq<PriceOutcome>) returns (r: Option<Prices>)
    ensures r == AbsorbAll(p, os)
  {
    var best := p;
    assert os[0..] == os;
    for k := 0 to |os|
      invariant AbsorbAll(p, os) == AbsorbAll(best, os[k..])
    {
      var o := os[k];
      assert os[k..][1..] == os[k + 1..];
      if o.name == "Home" {
        best := best.(home := Max(best.home, o.price));
      } else if o.name == "Draw" {
        best := best.(draw := Max(best.draw, o.price));
      } else if o.capitalName.None? {
        return None;
      } else if o.capitalName.value == "Away" {
        best := best.(away := Max(best.away, o.price));
      }
    }
    return Some(best);
  }

  /** The loop of app.py:304-312 over the markets of one bookmaker. */
  method AbsorbMarkets(p: Prices, mks: seq<Market>) returns (r: Option<Prices>)
    ensures r == AbsorbAll(p, MarketOutcomes(mks))
  {
    var best := p;
    assert mks[0..] == mks;
    for j := 0 to |mks|
      invariant AbsorbAll(p, MarketOutcomes(mks)) == AbsorbAll(best, MarketOutcomes(mks[j..]))
    {
      MarketStep(mks, j);
      if mks[j].key == "h2h" {
        AbsorbAllAppend(best, mks[j].outcomes, MarketOutcomes(mks[j + 1..]));
        var next := AbsorbOutcomes(best, mks[j].outcomes);
        if next.None? {
          return None;
        }
        best := next.value;
      }
    }
    return Some(best);
  }

  /** The loops of app.py:301-312 over one event. */
  method CollectBestPrices(e: Event) returns (r: Option<Prices>)
    ensures r == BestPrices(e)
  {
    var best := NoPrices;
    var bms := e.bookmakers;
    assert bms[0..] == bms;
    for i := 0 to |bms|
      invariant BestPrices(e) == AbsorbAll(best, H2HOutcomes(bms[i..]))
    {
      BookmakerStep(bms, i);
      AbsorbAllAppend(best, MarketOutcomes(bms[i].markets), H2HOutcomes(bms[i + 1..]));
      var next := AbsorbMarkets(best, bms[i].markets);
      if next.None? {
        return None;
      }
      best := next.value;
    }
    return Some(best);
  }

  /** The prices an event contributes to the lookup: only when they sum to more than 0. */
  predicate Priced(p: Prices)
  {
    p.home + p.draw + p.away > 0.0
  }

  function EventKey(e: Event): Key
  {
    (e.homeTeam, e.awayTeam)
  }

  /** The odds_lookup dictionary built from `acc` and the events `es`; a later event
      with the same key overwrites an earlier one. None when an event's loops raised. */
  function LookupFrom(acc: map<Key, Prices>, es: seq<Event>): Option<map<Key, Prices>>
    decreases |es|
  {
    if es == [] then Some(acc)
    else
      match BestPrices(es[0])
      case None => None
      case Some(p) => LookupFrom(if Priced(p) then acc[EventKey(es[0]) := p] else acc, es[1..])
  }

  function OddsLookup(es: seq<Event>): Option<map<Key, Prices>>
  {
    LookupFrom(map[], es)
  }

  /** The loop of app.py:297-315. */
  method BuildOddsLookup(es: seq<Event>) returns (r: Option<map<Key, Prices>>)
    ensures r == OddsLookup(es)
  {
    ghost var target := OddsLookup(es);
    var lookup: map<Key, Prices> := map[];
    assert es[0..] == es;
    for i := 0 to |es|
      invariant target == LookupFrom(lookup, es[i..])
    {
      assert es[i..][1..] == es[i + 1..];
      var best := CollectBestPrices(es[i]);
      if best.None? {
        return None;
      }
      if best.value.home + best.value.draw + best.value.away > 0.0 {
        lookup := lookup[(es[i].homeTeam, es[i].awayTeam) := best.value];
      }
    }
    return Some(lookup);
  }

  /** What the lookup holds: each entry comes from an event with that key and prices summing
      to more than 0, every such event's key is present, and it fails exactly when an event's
      loops raise. */
  lemma {:induction false} LookupFromSound(acc: map<Key, Prices>, es: seq<Event>)
    requires forall k :: k in acc ==> Priced(acc[k])
    ensures LookupFrom(acc, es).None? <==> exists i :: 0 <= i < |es| && BestPrices(es[i]).None?
    ensures LookupFrom(acc, es).Some? ==>
      var l := LookupFrom(acc, es).value;
      && acc.Keys <= l.Keys
      && (forall k :: k in l ==> Priced(l[k]))
      && (forall k :: k in l ==> (k in acc && l[k] == acc[k]) || exists i :: 0 <= i < |es| && EventKey(es[i]) == k && BestPrices(es[i]) == Some(l[k]))
      && (forall i :: 0 <= i < |es| && Priced(BestPrices(es[i]).value) ==> EventKey(es[i]) in l)
    decreases |es|
  {
    if es != [] {
      match BestPrices(es[0])
      case None =>
      case Some(p) =>
        var acc' := if Priced(p) then acc[EventKey(es[0]) := p] else acc;
        LookupFromSound(acc', es[1..]);
        assert (exists i :: 0 <= i < |es| && BestPrices(es[i]).None?) <==>
               (exists i :: 0 <= i < |es[1..]| && BestPrices(es[1..][i]).None?) by {
          forall i | 0 <= i < |es| && BestPrices(es[i]).None? ensures 0 <= i - 1 < |es[1..]| && BestPrices(es[1..][i - 1]).None? {
          }
        }
        if LookupFrom(acc, es).Some? {
          var l := LookupFrom(acc, es).value;
          forall k | k in l
            ensures (k in acc && l[k] == acc[k]) || exists i :: 0 <= i < |es| && EventKey(es[i]) == k && BestPrices(es[i]) == Some(l[k])
          {
            if k in acc' && l[k] == acc'[k] {
              if Priced(p) && k == EventKey(es[0]) {
                assert EventKey(es[0]) == k && BestPrices(es[0]) == Some(l[k]);
              }
            } else {
              var i :| 0 <= i < |es[1..]| && EventKey(es[1..][i]) == k && BestPrices(es[1..][i]) == Some(l[k]);
              assert es[1..][i] == es[i + 1];
            }
          }
          forall i | 0 <= i < |es| && Priced(BestPrices(es[i]).value)
            ensures EventKey(es[i]) in l
          {
            if i > 0 {
              assert es[1..][i - 1] == es[i];
            }
          }
        }
    }
  }

  /** What the odds lookup holds, for the lookup of a whole feed. */
  lemma OddsLookupSound(es: seq<Event>)
    ensures OddsLookup(es).None? <==> exists i :: 0 <= i < |es| && BestPrices(es[i]).None?
    ensures OddsLookup(es).Some? ==>
      var l := OddsLookup(es).value;
      && (forall k :: k in l ==> Priced(l[k]))
      && (forall k :: k in l ==> exists i :: 0 <= i < |es| && EventKey(es[i]) == k && BestPrices(es[i]) == Some(l[k]))
      && (forall i :: 0 <= i < |es| && Priced(BestPrices(es[i]).value) ==> EventKey(es[i]) in l)
  {
    LookupFromSound(map[], es);
  }

  /** Event i is the last event of the feed with team pair k whose best prices sum to more
      than 0. */
  predicate LastPricedFor(es: seq<Event>, i: int, k: Key)
  {
    && 0 <= i < |es| && BestPrices(es[i]).Some? && Priced(BestPrices(es[i]).value) && EventKey(es[i]) == k
    && forall j :: i < j < |es| && BestPrices(es[j]).Some? && Priced(BestPrices(es[j]).value) ==> EventKey(es[j]) != k
  }

  /** A later event with the same team pair overwrites an earlier one: the entry for a pair
      holds the best prices of the last priced event with that pair. */
  lemma {:induction false} LookupFromLastWins(acc: map<Key, Prices>, es: seq<Event>, i: int, k: Key)
    requires forall k :: k in acc ==> Priced(acc[k])
    requires LookupFrom(acc, es).Some? && LastPricedFor(es, i, k)
    ensures k in LookupFrom(acc, es).value && LookupFrom(acc, es).value[k] == BestPrices(es[i]).value
    decreases |es|
  {
    var p := BestPrices(es[0]).value;
    var acc' := if Priced(p) then acc[EventKey(es[0]) := p] else acc;
    assert LookupFrom(acc, es) == LookupFrom(acc', es[1..]);
    if i == 0 {
      forall j | 0 <= j < |es[1..]| && BestPrices(es[1..][j]).Some? && Priced(BestPrices(es[1..][j]).value)
        ensures EventKey(es[1..][j]) != k
      {
        assert es[1..][j] == es[j + 1];
      }
      LookupFromSound(acc', es[1..]);
    } else {
      assert LastPricedFor(es[1..], i - 1, k) by {
        forall j | i - 1 < j < |es[1..]| && BestPrices(es[1..][j]).Some? && Priced(BestPrices(es[1..][j]).value)
          ensures EventKey(es[1..][j]) != k
        {
          assert es[1..][j] == es[j + 1];
        }
      }
      LookupFromLastWins(acc', es[1..], i - 1, k);
    }
  }

  /** The odds lookup of a whole feed holds, for each team pair, the best prices of the last
      priced event with that pair. */
  lemma OddsLookupLastWins(es: seq<Event>, i: int, k: Key)
    requires OddsLookup(es).Some? && LastPricedFor(es, i, k)
    ensures k in OddsLookup(es).value && OddsLookup(es).value[k] == BestPrices(es[i]).value
  {
    LookupFromLastWins(map[], es, i, k);
  }

  /** A fixture after the join (app.py:318-324): odds replaced when its exact (home, away)
      pair is in the lookup; nothing else about the fixture changes. */
  function WithOdds(m: Match, lookup: map<Key, Prices>): (r: Match)
    ensures (m.homeTeam, m.awayTeam) !in lookup ==> r == m
    ensures (m.homeTeam, m.awayTeam) in lookup ==>
      var p := lookup[(m.homeTeam, m.awayTeam)];
      r.homeOdds == p.home && r.drawOdds == p.draw && r.awayOdds == p.away
    ensures r.(homeOdds := m.homeOdds, drawOdds := m.drawOdds, awayOdds := m.awayOdds) == m
  {
    var key := (m.homeTeam, m.awayTeam);
    if key in lookup then
      var p := lookup[key];
      m.(homeOdds := p.home, drawOdds := p.draw, awayOdds := p.away)
    else m
  }

  /** The loop of app.py:318-324, writing into the fixtures in place. */
  method ApplyOdds(a: array<Match>, lookup: map<Key, Prices>)
    modifies a
    ensures forall i :: 0 <= i < a.Length ==> a[i] == WithOdds(old(a[i]), lookup)
  {
    for i := 0 to a.Length
      invariant forall k :: 0 <= k < i ==> a[k] == WithOdds(old(a[k]), lookup)
      invariant forall k :: i <= k < a.Length ==> a[k] == old(a[k])
    {
      var key := (a[i].homeTeam, a[i].awayTeam);
      if key in lookup {
        var odds := lookup[key];
        a[i] := a[i].(homeOdds := odds.home, drawOdds := odds.draw, awayOdds := odds.away);
      }
    }
  }

  /** BettingApp.fetch_odds after the request: `response` is the event list of a 200
      response, None when the request failed or returned another status. Any failure,
      including the KeyError of the away branch, leaves every fixture as it was. */
  method FetchOdds(a: array<Match>, response: Option<seq<Event>>)
    modifies a
    ensures response.None? || OddsLookup(response.value).None? ==> a[..] == old(a[..])
    ensures response.Some? && OddsLookup(response.value).Some? ==>
      forall i :: 0 <= i < a.Length ==> a[i] == WithOdds(old(a[i]), OddsLookup(response.value).value)
  {
    if response.None? {
      return;
    }
    var lookup := BuildOddsLookup(response.value);
    if lookup.Some? {
      ApplyOdds(a, lookup.value);
    }
  }
}

=== FILE: pricing.dfy ===
/** Per-fixture value-betting arithmetic of the tip generator (app.py:340-375):
    fair price and edge of each outcome, the scan for the best edge, the
    confidence ladder and the capped fractional-Kelly stake. */
module Pricing {
  import opened Types

  /** One candidate bet of a fixture: an outcome, its probability (percent) and offered odds. */
  datatype Bet = Bet(outcome: Outcome, prob: real, odds: real)

  /** The three candidate bets, in the order the generator scans them. */
  function Bets(m: Match): seq<Bet>
  {
    [Bet(Home, m.homeProb, m.homeOdds), Bet(Draw, m.drawProb, m.drawOdds), Bet(Away, m.awayProb, m.awayOdds)]
  }

  /** The fair price is 100 / prob, so every probability must be non-zero. */
  predicate Priceable(bs: seq<Bet>)
  {
    forall j :: 0 <= j < |bs| ==> bs[j].prob != 0.0
  }

  /** Percentage by which the offered odds beat the fair odds 100 / prob: it is the
      expected profit, in percent of the stake, of backing the bet. */
  function Edge(b: Bet): (e: real)
    requires b.prob != 0.0
    ensures e == b.odds * b.prob - 100.0
  {
    var fair := 100.0 / b.prob;
    EdgeIsExpectedReturn(b.odds, b.prob, fair);
    ((b.odds - fair) / fair) * 100.0
  }

  lemma EdgeIsExpectedReturn(odds: real, prob: real, fair: real)
    requires prob != 0.0 && fair == 100.0 / prob
    ensures ((odds - fair) / fair) * 100.0 == odds * prob - 100.0
  {
    assert fair * prob == 100.0;
    assert fair != 0.0;
    calc {
      ((odds - fair) / fair) * 100.0;
      (odds / fair - 1.0) * 100.0;
      { assert odds / fair == odds * prob / 100.0; }
      odds * prob - 100.0;
    }
  }

  /** `k` is the bet the scan keeps: its edge beats the starting value -100, no bet
      has a larger edge, and every earlier bet has a strictly smaller one. */
  predicate IsFirstMax(bs: seq<Bet>, k: nat)
    requires Priceable(bs)
  {
    && k < |bs|
    && Edge(bs[k]) > -100.0
    && (forall j :: 0 <= j < |bs| ==> Edge(bs[j]) <= Edge(bs[k]))
    && (forall j :: 0 <= j < k ==> Edge(bs[j]) < Edge(bs[k]))
  }

  /** The index the scan ends with: it starts with no bet and a running best edge of -100
      and moves to a later bet only on a strictly larger edge. */
  function BestBet(bs: seq<Bet>): (r: Option<nat>)
    requires Priceable(bs)
    ensures r.Some? ==> IsFirstMax(bs, r.value)
    ensures r.None? ==> forall j :: 0 <= j < |bs| ==> Edge(bs[j]) <= -100.0
  {
    if bs == [] then None
    else
      var prev := BestBet(bs[..|bs| - 1]);
      var running := if prev.None? then -100.0 else Edge(bs[prev.value]);
      if Edge(bs[|bs| - 1]) > running then Some(|bs| - 1) else prev
  }

  /** The loop of app.py:346-358. */
  method ChooseBet(bs: seq<Bet>) returns (best: Option<nat>, bestEdge: real)
    requires Priceable(bs)
    ensures best == BestBet(bs)
    ensures best.Some? ==> best.value < |bs| && bestEdge == Edge(bs[best.value])
    ensures best.None? ==> bestEdge == -100.0
  {
    best, bestEdge := None, -100.0;
    for i := 0 to |bs|
      invariant best == BestBet(bs[..i])
      invariant best.Some? ==> best.value < i && bestEdge == Edge(bs[best.value])
      invariant best.None? ==> bestEdge == -100.0
    {
      assert bs[..i + 1][..i] == bs[..i];
      var fair := 100.0 / bs[i].prob;
      var edge := ((bs[i].odds - fair) / fair) * 100.0;
      if edge > bestEdge {
        best, bestEdge := Some(i), edge;
      }
    }
    assert bs[..|bs|] == bs;
  }

  function Rank(c: Confidence): nat
  {
    match c
    case Low => 0
    case Medium => 1
    case High => 2
  }

  /** The confidence ladder of app.py:364-369. */
  function Classify(edge: real, prob: real): (c: Confidence)
    ensures c == High <==> edge >= 25.0 && prob >= 60.0
    ensures c == Medium <==> !(edge >= 25.0 && prob >= 60.0) && (edge >= 15.0 || prob >= 50.0)
    ensures c == Low <==> edge < 15.0 && prob < 50.0
  {
    if edge >= 25.0 && prob >= 60.0 then High
    else if edge >= 15.0 || prob >= 50.0 then Medium
    else Low
  }

  /** A larger edge and a larger probability never lower the tier. */
  lemma ClassifyMonotone(e1: real, p1: real, e2: real, p2: real)
    requires e1 <= e2 && p1 <= p2
    ensures Rank(Classify(e1, p1)) <= Rank(Classify(e2, p2))
  {
  }

  /** Stake multiplier per tier. */
  function Multiplier(c: Confidence): (k: real)
    ensures 0.0 < k <= 1.0
  {
    match c
    case High => 1.0
    case Medium => 0.7
    case Low => 0.4
  }

  /** A higher tier never stakes a smaller share. */
  lemma MultiplierMonotone(c1: Confidence, c2: Confidence)
    requires Rank(c1) <= Rank(c2)
    ensures Multiplier(c1) <= Multiplier(c2)
  {
  }

  /** The classic Kelly fraction ((odds - 1) p - (1 - p)) / (odds - 1) for a percentage
      probability: it is the edge divided by 100 (odds - 1). */
  function KellyFraction(odds: real, prob: real): (k: real)
    requires odds != 1.0
    ensures k * (odds - 1.0) * 100.0 == odds * prob - 100.0
  {
    var b := odds - 1.0;
    var p := prob / 100.0;
    assert (b * p - (1.0 - p)) / b * b == b * p - (1.0 - p);
    (b * p - (1.0 - p)) / b
  }

  /** At decimal odds above 1, Kelly backs a bet exactly when its edge is positive. */
  lemma KellyPositiveIffEdge(odds: real, prob: real)
    requires odds > 1.0 && prob != 0.0
    ensures KellyFraction(odds, prob) > 0.0 <==> Edge(Bet(Home, prob, odds)) > 0.0
  {
    var k := KellyFraction(odds, prob);
    var b := odds - 1.0;
    assert k * b * 100.0 == Edge(Bet(Home, prob, odds));
    if k > 0.0 {
      assert k * b > 0.0;
    } else {
      assert k * b <= 0.0;
    }
  }

  /** The fractional, tier-scaled Kelly stake clamped to [0, maxKellyPct] (app.py:372-375):
      the point of that interval nearest the scaled Kelly value; with a negative cap it is 0. */
  function Stake(odds: real, prob: real, c: Confidence, cfg: Config): (s: real)
    requires odds != 1.0
    ensures 0.0 <= s
    ensures cfg.maxKellyPct >= 0.0 ==> s <= cfg.maxKellyPct
    ensures cfg.maxKellyPct < 0.0 ==> s == 0.0
    ensures var scaled := KellyFraction(odds, prob) * (cfg.kellyFraction * Multiplier(c));
      && (0.0 <= scaled <= cfg.maxKellyPct ==> s == scaled)
      && (scaled < 0.0 ==> s == 0.0)
      && (0.0 <= cfg.maxKellyPct < scaled ==> s == cfg.maxKellyPct)
  {
    var kelly := KellyFraction(odds, prob) * (cfg.kellyFraction * Multiplier(c));
    Max(0.0, Min(kelly, cfg.maxKellyPct))
  }
}

=== FILE: probabilities.dfy ===
/** The draw complement and normalisation step of BettingApp.fetch_matches
    (app.py:248-254, scaled to percentages at app.py:262-264). The home-win and
    away-win likelihoods themselves come from a Poisson heuristic and are inputs here. */
module Probabilities {

  /** Percentages for home win, draw and away win from the two likelihoods. */
  datatype Triple = Triple(home: real, draw: real, away: real)

  /** The draw is 1 - home - away and all three are divided by their total, which is
      exactly 1: the percentages always sum to 100 and normalisation changes nothing. The
      draw is negative exactly when the two likelihoods sum to more than 1, a case the
      step does not guard. */
  function Normalise(homeWin: real, awayWin: real): (r: Triple)
    ensures r.home + r.draw + r.away == 100.0
    ensures r.home == 100.0 * homeWin && r.away == 100.0 * awayWin
    ensures r.draw < 0.0 <==> homeWin + awayWin > 1.0
  {
    var draw := 1.0 - homeWin - awayWin;
    var total := homeWin + draw + awayWin;
    Triple(homeWin / total * 100.0, draw / total * 100.0, awayWin / total * 100.0)
  }
}

=== FILE: schema.dfy ===
/** The column layout of the tips table as created by BettingApp.setup_database
    (app.py:81-98), and the columns the settlement UPDATE writes (app.py:474-481). */
module Schema {

  /** The tips table's columns, in order: a fetched row is a tuple indexed by position. */
  const TipsColumns: seq<string> := [
    "id", "home_team", "away_team", "league", "date", "prediction", "confidence",
    "edge", "kelly_pct", "kelly_units", "odds", "status", "actual_outcome", "score",
    "created_at"]

  /** The columns the settlement statement assigns. */
  const SettleColumns: seq<string> := ["status", "actual_outcome", "score", "win"]

  /** A statement assigning `cols` runs only when the table has every one of them. */
  predicate Accepts(table: seq<string>, cols: seq<string>)
  {
    forall c :: c in cols ==> c in table
  }

  /** The positions the tuple reads use: 1 and 2 are the teams, 5 the prediction, 9 the
      stake in units, 10 the odds, 11 the status; 14, read as the win flag, is the
      creation timestamp. */
  lemma ColumnPositions()
    ensures |TipsColumns| == 15
    ensures TipsColumns[1] == "home_team" && TipsColumns[2] == "away_team"
    ensures TipsColumns[5] == "prediction" && TipsColumns[9] == "kelly_units"
    ensures TipsColumns[10] == "odds" && TipsColumns[11] == "status"
    ensures TipsColumns[14] == "created_at"
  {
  }

  /** The table has no `win` column, so the settlement statement is rejected. */
  lemma SettleUpdateRejected()
    ensures "win" !in TipsColumns
    ensures !Accepts(TipsColumns, SettleColumns)
  {
    assert SettleColumns[3] == "win";
    forall j | 0 <= j < |TipsColumns|
      ensures TipsColumns[j] != "win"
    {
      assert TipsColumns[j][0] != 'w' || |TipsColumns[j]| != 3;
    }
  }
}

=== FILE: settlement.dfy ===
/** Result settlement of BettingApp.update_results (app.py:440-481): a final score
    becomes an outcome code, finished matches are collected by team pair, and a pending
    tip row becomes resulted with its win flag. */
module Settlement {
  import opened Types
  import Schema

  /** One match of the results feed; a goal count is None when the feed has null there. */
  datatype FeedMatch = FeedMatch(
    status: string, homeTeam: string, awayTeam: string,
    homeGoals: Option<int>, awayGoals: Option<int>)

  /** An entry of the results dictionary. */
  datatype MatchResult = MatchResult(outcome: Outcome, score: Score)

  /** A row of the tips table, with named fields: the fifteen columns of the table plus the
      win flag that settlement records. */
  datatype Row = Row(
    id: int, homeTeam: string, awayTeam: string, league: string, date: string,
    prediction: string, confidence: Confidence,
    edge: real, kellyPct: real, kellyUnits: real, odds: real,
    status: Status, actualOutcome: Option<Outcome>, score: Option<Score>, createdAt: string,
    win: Option<bool>)

  /** Outcome of a full-time score (app.py:447-452). */
  function OutcomeOfScore(hg: int, ag: int): (o: Outcome)
    ensures o == Home <==> hg > ag
    ensures o == Away <==> ag > hg
    ensures o == Draw <==> hg == ag
  {
    if hg > ag then Home
    else if ag > hg then Away
    else Draw
  }

  function Swap(o: Outcome): Outcome
  {
    match o
    case Home => Away
    case Draw => Draw
    case Away => Home
  }

  /** Reading a score from the other side swaps home and away wins. */
  lemma OutcomeOfScoreSymmetric(hg: int, ag: int)
    ensures OutcomeOfScore(ag, hg) == Swap(OutcomeOfScore(hg, ag))
  {
  }

  /** A match the loop records: finished, with a home goal count. */
  predicate Recorded(f: FeedMatch)
  {
    f.status == "FINISHED" && f.homeGoals.Some?
  }

  /** A recorded match whose away goal count is null: comparing an int with None raises. */
  predicate Broken(f: FeedMatch)
  {
    Recorded(f) && f.awayGoals.None?
  }

  function ResultOf(f: FeedMatch): MatchResult
    requires Recorded(f) && f.awayGoals.Some?
  {
    var hg, ag := f.homeGoals.value, f.awayGoals.value;
    MatchResult(OutcomeOfScore(hg, ag), Score(hg, ag))
  }

  /** The results dictionary built from `acc` over the feed; a later match with the same
      team pair overwrites an earlier one. None when the loop raises. */
  function ResultsFrom(acc: map<Key, MatchResult>, feed: seq<FeedMatch>): Option<map<Key, MatchResult>>
    decreases |feed|
  {
    if feed == [] then Some(acc)
    else
      var f := feed[0];
      if !Recorded(f) then ResultsFrom(acc, feed[1..])
      else if f.awayGoals.None? then None
      else ResultsFrom(acc[(f.homeTeam, f.awayTeam) := ResultOf(f)], feed[1..])
  }

  function Results(feed: seq<FeedMatch>): Option<map<Key, MatchResult>>
  {
    ResultsFrom(map[], feed)
  }

  /** The loop of app.py:440-457. */
  method CollectResults(feed: seq<FeedMatch>) returns (r: Option<map<Key, MatchResult>>)
    ensures r == Results(feed)
  {
    var results: map<Key, MatchResult> := map[];
    assert feed[0..] == feed;
    for i := 0 to |feed|
      invariant Results(feed) == ResultsFrom(results, feed[i..])
    {
      assert feed[i..][1..] == feed[i + 1..];
      var f := feed[i];
      if f.status == "FINISHED" {
        var hg, ag := f.homeGoals, f.awayGoals;
        if hg.Some? {
          if ag.None? {
            return None;
          }
          var outcome;
          if hg.value > ag.value {
            outcome := Home;
          } else if ag.value > hg.value {
            outcome := Away;
          } else {
            outcome := Draw;
          }
          results := results[(f.homeTeam, f.awayTeam) := MatchResult(outcome, Score(hg.value, ag.value))];
        }
      }
    }
    return Some(results);
  }

  /** What the results dictionary holds: each entry is the result of a recorded match with
      that team pair, every recorded match's pair is present, and collection fails exactly
      when a recorded match has no away goal count. */
  lemma {:induction false} ResultsFromSound(acc: map<Key, MatchResult>, feed: seq<FeedMatch>)
    ensures ResultsFrom(acc, feed).None? <==> exists i :: 0 <= i < |feed| && Broken(feed[i])
    ensures ResultsFrom(acc, feed).Some? ==>
      var r := ResultsFrom(acc, feed).value;
      && acc.Keys <= r.Keys
      && (forall k :: k in r ==> ((k in acc && r[k] == acc[k]) ||
            exists i :: 0 <= i < |feed| && Recorded(feed[i]) && feed[i].awayGoals.Some? &&
              (feed[i].homeTeam, feed[i].awayTeam) == k && r[k] == ResultOf(feed[i])))
      && (forall i :: 0 <= i < |feed| && Recorded(feed[i]) ==> (feed[i].homeTeam, feed[i].awayTeam) in r)
    decreases |feed|
  {
    if feed != [] {
      var f := feed[0];
      if Broken(f) {
        assert Broken(feed[0]);
      } else {
        var acc' := if Recorded(f) then acc[(f.homeTeam, f.awayTeam) := ResultOf(f)] else acc;
        assert ResultsFrom(acc, feed) == ResultsFrom(acc', feed[1..]);
        ResultsFromSound(acc', feed[1..]);
        assert (exists i :: 0 <= i < |feed| && Broken(feed[i])) <==>
               (exists i :: 0 <= i < |feed[1..]| && Broken(feed[1..][i])) by {
          forall i | 0 <= i < |feed| && Broken(feed[i]) ensures 0 <= i - 1 < |feed[1..]| && Broken(feed[1..][i - 1]) {
          }
        }
        if ResultsFrom(acc, feed).Some? {
          var r := ResultsFrom(acc, feed).value;
          forall k | k in r
            ensures (k in acc && r[k] == acc[k]) ||
              exists i :: 0 <= i < |feed| && Recorded(feed[i]) && feed[i].awayGoals.Some? &&
                (feed[i].homeTeam, feed[i].awayTeam) == k && r[k] == ResultOf(feed[i])
          {
            if k in acc' && r[k] == acc'[k] {
              if Recorded(f) && k == (f.homeTeam, f.awayTeam) {
                assert Recorded(feed[0]) && feed[0].awayGoals.Some? && r[k] == ResultOf(feed[0]);
              }
            } else {
              var i :| 0 <= i < |feed[1..]| && Recorded(feed[1..][i]) && feed[1..][i].awayGoals.Some? &&
                (feed[1..][i].homeTeam, feed[1..][i].awayTeam) == k && r[k] == ResultOf(feed[1..][i]);
              assert feed[1..][i] == feed[i + 1];
            }
          }
          forall i | 0 <= i < |feed| && Recorded(feed[i])
            ensures (feed[i].homeTeam, feed[i].awayTeam) in r
          {
            if i > 0 {
              assert feed[1..][i - 1] == feed[i];
            }
          }
        }
      }
    }
  }

  /** What the results dictionary of a whole feed holds. */
  lemma ResultsSound(feed: seq<FeedMatch>)
    ensures Results(feed).None? <==> exists i :: 0 <= i < |feed| && Broken(feed[i])
    ensures Results(feed).Some? ==>
      var r := Results(feed).value;
      && (forall k :: k in r ==>
            exists i :: 0 <= i < |feed| && Recorded(feed[i]) && feed[i].awayGoals.Some? &&
              (feed[i].homeTeam, feed[i].awayTeam) == k && r[k] == ResultOf(feed[i]))
      && (forall i :: 0 <= i < |feed| && Recorded(feed[i]) ==> (feed[i].homeTeam, feed[i].awayTeam) in r)
  {
    ResultsFromSound(map[], feed);
  }

  /** Match i is the last recorded match of the feed with team pair k. */
  predicate LastRecordedFor(feed: seq<FeedMatch>, i: int, k: Key)
  {
    && 0 <= i < |feed| && Recorded(feed[i]) && (feed[i].homeTeam, feed[i].awayTeam) == k
    && forall j :: i < j < |feed| && Recorded(feed[j]) ==> (feed[j].homeTeam, feed[j].awayTeam) != k
  }

  /** A later match with the same team pair overwrites an earlier one: the entry for a pair
      is the result of the last recorded match with that pair. */
  lemma {:induction false} ResultsFromLastWins(acc: map<Key, MatchResult>, feed: seq<FeedMatch>, i: int, k: Key)
    requires ResultsFrom(acc, feed).Some? && LastRecordedFor(feed, i, k)
    ensures feed[i].awayGoals.Some?
    ensures k in ResultsFrom(acc, feed).value && ResultsFrom(acc, feed).value[k] == ResultOf(feed[i])
    decreases |feed|
  {
    ResultsFromSound(acc, feed);
    assert !Broken(feed[i]);
    var f := feed[0];
    assert !Broken(f);
    var acc' := if Recorded(f) then acc[(f.homeTeam, f.awayTeam) := ResultOf(f)] else acc;
    assert ResultsFrom(acc, feed) == ResultsFrom(acc', feed[1..]);
    if i == 0 {
      forall j | 0 <= j < |feed[1..]| && Recorded(feed[1..][j])
        ensures (feed[1..][j].homeTeam, feed[1..][j].awayTeam) != k
      {
        assert feed[1..][j] == feed[j + 1];
      }
      ResultsFromSound(acc', feed[1..]);
    } else {
      assert LastRecordedFor(feed[1..], i - 1, k) by {
        forall j | i - 1 < j < |feed[1..]| && Recorded(feed[1..][j])
          ensures (feed[1..][j].homeTeam, feed[1..][j].awayTeam) != k
        {
          assert feed[1..][j] == feed[j + 1];
        }
      }
      ResultsFromLastWins(acc', feed[1..], i - 1, k);
    }
  }

  /** The results dictionary of a feed holds, for each team pair, the result of the last
      recorded match with that pair. */
  lemma ResultsLastWins(feed: seq<FeedMatch>, i: int, k: Key)
    requires Results(feed).Some? && LastRecordedFor(feed, i, k)
    ensures feed[i].awayGoals.Some?
    ensures k in Results(feed).value && Results(feed).value[k] == ResultOf(feed[i])
  {
    ResultsFromLastWins(map[], feed, i, k);
  }

  function RowKey(r: Row): Key
  {
    (r.homeTeam, r.awayTeam)
  }

  /** One row after settlement (app.py:460-481). Only a pending row whose team pair has a
      result changes: it becomes resulted, records the outcome and score, and wins exactly
      when its prediction, read back as an outcome with "1" as the fallback, is the actual
      outcome. No other field changes and a resulted row is never reopened. */
  function SettleRow(r: Row, results: map<Key, MatchResult>): (s: Row)
    ensures s.status == Resulted <==> (r.status == Resulted || RowKey(r) in results)
    ensures r.status == Resulted || RowKey(r) !in results ==> s == r
    ensures r.status == Pending && RowKey(r) in results ==>
      && s.actualOutcome == Some(results[RowKey(r)].outcome)
      && s.score == Some(results[RowKey(r)].score)
      && (s.win == Some(true) <==> OutcomeOfPrediction(r.prediction) == results[RowKey(r)].outcome)
      && s.win.Some?
    ensures s.(status := r.status, actualOutcome := r.actualOutcome, score := r.score, win := r.win) == r
  {
    if r.status.Pending? && RowKey(r) in results then
      var res := results[RowKey(r)];
      var predicted := OutcomeOfPrediction(r.prediction);
      r.(status := Resulted, actualOutcome := Some(res.outcome), score := Some(res.score),
         win := Some(predicted == res.outcome))
    else r
  }

  /** Settling twice with the same results is settling once. */
  lemma SettleRowIdempotent(r: Row, results: map<Key, MatchResult>)
    ensures SettleRow(SettleRow(r, results), results) == SettleRow(r, results)
  {
  }

  /** The table after the settlement loop, row by row. */
  function SettleAll(rows: seq<Row>, results: map<Key, MatchResult>): (r: seq<Row>)
    ensures |r| == |rows|
    ensures forall i :: 0 <= i < |rows| ==> r[i] == SettleRow(rows[i], results)
  {
    if rows == [] then []
    else SettleAll(rows[..|rows| - 1], results) + [SettleRow(rows[|rows| - 1], results)]
  }

  /** A row the loop issues an UPDATE for. */
  predicate Due(r: Row, results: map<Key, MatchResult>)
  {
    r.status.Pending? && RowKey(r) in results
  }

  /** Row ids are distinct, as the table's autoincrement primary key makes them. */
  predicate DistinctIds(rows: seq<Row>)
  {
    forall i, j :: 0 <= i < j < |rows| ==> rows[i].id != rows[j].id
  }

  /** The statement `UPDATE tips ... WHERE id = ?`: every row with that id becomes `row`. */
  function UpdateWhereId(rows: seq<Row>, id: int, row: Row): seq<Row>
  {
    seq(|rows|, k requires 0 <= k < |rows| => if rows[k].id == id then row else rows[k])
  }

  /** With distinct ids, updating the rows whose id is that of row i replaces row i and
      nothing else, and ids stay distinct when the new row keeps the id. */
  lemma WhereIdIsPositional(rows: seq<Row>, i: nat, row: Row)
    requires DistinctIds(rows) && i < |rows|
    ensures UpdateWhereId(rows, rows[i].id, row) == rows[i := row]
    ensures row.id == rows[i].id ==> DistinctIds(rows[i := row])
  {
    var u := UpdateWhereId(rows, rows[i].id, row);
    forall k | 0 <= k < |rows|
      ensures u[k] == rows[i := row][k]
    {
      if k != i {
        assert rows[k].id != rows[i].id;
      }
    }
  }

  /** Settlement changes nothing when no pending row has a result. */
  lemma {:induction false} SettleAllNothingDue(rows: seq<Row>, results: map<Key, MatchResult>)
    requires forall i :: 0 <= i < |rows| ==> !Due(rows[i], results)
    ensures SettleAll(rows, results) == rows
  {
    if rows != [] {
      SettleAllNothingDue(rows[..|rows| - 1], results);
      assert rows == rows[..|rows| - 1] + [rows[|rows| - 1]];
    }
  }

  /** Settling the whole table twice with the same results is settling it once. */
  lemma SettleAllIdempotent(rows: seq<Row>, results: map<Key, MatchResult>)
    ensures SettleAll(SettleAll(rows, results), results) == SettleAll(rows, results)
  {
    var once := SettleAll(rows, results);
    forall i | 0 <= i < |rows|
      ensures SettleAll(once, results)[i] == once[i]
    {
      SettleRowIdempotent(rows[i], results);
    }
  }

  /** The settlement loop as written: the first UPDATE it issues names the column `win`, and
      when the table lacks a column the statement raises, the handler swallows the error
      and the transaction is never committed (None). With no row due, nothing is issued. */
  function SettleAsWritten(rows: seq<Row>, results: map<Key, MatchResult>): (r: Option<seq<Row>>)
    ensures r.None? <==> !Schema.Accepts(Schema.TipsColumns, Schema.SettleColumns) && exists i :: 0 <= i < |rows| && Due(rows[i], results)
  {
    if exists i :: 0 <= i < |rows| && Due(rows[i], results) then
      if Schema.Accepts(Schema.TipsColumns, Schema.SettleColumns) then Some(SettleAll(rows, results)) else None
    else Some(rows)
  }

  /** What the table holds afterwards: an uncommitted transaction leaves it as it was. */
  function TableAfterAsWritten(rows: seq<Row>, results: map<Key, MatchResult>): seq<Row>
  {
    match SettleAsWritten(rows, results)
    case None => rows
    case Some(t) => t
  }

  /** As written, settlement never changes the table, whatever the results. */
  lemma AsWrittenNothingSettles(rows: seq<Row>, results: map<Key, MatchResult>)
    ensures TableAfterAsWritten(rows, results) == rows
  {
    Schema.SettleUpdateRejected();
    if !exists i :: 0 <= i < |rows| && Due(rows[i], results) {
      SettleAllNothingDue(rows, results);
    }
  }

  /** A pending home-win tip whose fixture finished 2-1 stays pending as written, and is
      settled as a win by SettleAll. */
  lemma AsWrittenLosesResult()
    ensures var row := Row(1, "Arsenal", "Chelsea", "Premier League", "2026-10-10", "Home Win", Medium,
                            20.0, 0.05, 50.0, 2.0, Pending, None, None, "2026-10-09T12:00:00", None);
            var results := map[("Arsenal", "Chelsea") := MatchResult(OutcomeOfScore(2, 1), Score(2, 1))];
            && TableAfterAsWritten([row], results)[0].status == Pending
            && SettleAll([row], results)[0].status == Resulted
            && SettleAll([row], results)[0].win == Some(true)
  {
    var row := Row(1, "Arsenal", "Chelsea", "Premier League", "2026-10-10", "Home Win", Medium,
                   20.0, 0.05, 50.0, 2.0, Pending, None, None, "2026-10-09T12:00:00", None);
    var results := map[("Arsenal", "Chelsea") := MatchResult(OutcomeOfScore(2, 1), Score(2, 1))];
    AsWrittenNothingSettles([row], results);
    assert RowKey(row) in results;
  }
}

=== FILE: store.dfy ===
/** The stored side of the betting application: the tips table and the performance history,
    with the settlement run of BettingApp.update_results (app.py:417-489), the snapshot of
    update_performance (app.py:491-528) and the summary of get_performance (app.py:530-566). */
module Store {
  import opened Types
  import opened Settlement

  /** One row of the performance table (its date is left out). */
  datatype Snapshot = Snapshot(totalTips: nat, wins: nat, accuracy: real, roi: real, roiPct: real, profit: real)

  /** The dictionary get_performance returns. */
  datatype Summary = Summary(
    totalTips: nat, pending: nat, resulted: nat, wins: nat, accuracy: real,
    roi: real, roiPct: real, bankroll: real, history: seq<Snapshot>)

  /** The rows a `status = 'resulted'` query returns, in table order. */
  function ResultedRows(rows: seq<Row>): (rs: seq<Row>)
    ensures |rs| <= |rows|
    ensures forall r :: r in rs ==> r in rows && r.status.Resulted?
    ensures forall r :: r in rows && r.status.Resulted? ==> r in rs
  {
    if rows == [] then []
    else
      var last := rows[|rows| - 1];
      ResultedRows(rows[..|rows| - 1]) + (if last.status.Resulted? then [last] else [])
  }

  /** Number of rows still pending. */
  function PendingCount(rows: seq<Row>): (n: nat)
    ensures n <= |rows|
  {
    if rows == [] then 0
    else PendingCount(rows[..|rows| - 1]) + (if rows[|rows| - 1].status.Pending? then 1 else 0)
  }

  /** Every row is either pending or resulted, so the two counts make up the table. */
  lemma {:induction false} StatusCountsAddUp(rows: seq<Row>)
    ensures PendingCount(rows) + |ResultedRows(rows)| == |rows|
  {
    if rows != [] {
      StatusCountsAddUp(rows[..|rows| - 1]);
    }
  }

  /** A row counts as a win when its win flag is set. */
  predicate Won(r: Row)
  {
    r.win == Some(true)
  }

  /** Number of winning rows. */
  function Wins(rs: seq<Row>): (n: nat)
    ensures n <= |rs|
    ensures n == 0 <==> forall i :: 0 <= i < |rs| ==> !Won(rs[i])
  {
    if rs == [] then 0
    else
      var n := Wins(rs[..|rs| - 1]);
      assert forall i :: 0 <= i < |rs| - 1 ==> rs[..|rs| - 1][i] == rs[i];
      n + (if Won(rs[|rs| - 1]) then 1 else 0)
  }

  /** Profit of one settled stake: units times (odds - 1) when it won, the units lost otherwise. */
  function Profit(r: Row): real
  {
    if Won(r) then r.kellyUnits * (r.odds - 1.0) else -r.kellyUnits
  }

  /** Total profit over the rows, in table order. */
  function Roi(rs: seq<Row>): real
  {
    if rs == [] then 0.0 else Roi(rs[..|rs| - 1]) + Profit(rs[|rs| - 1])
  }

  /** Total units staked. */
  function Staked(rs: seq<Row>): real
  {
    if rs == [] then 0.0 else Staked(rs[..|rs| - 1]) + rs[|rs| - 1].kellyUnits
  }

  /** Profit of the winning rows: units times (odds - 1) each. */
  function WinningProfit(rs: seq<Row>): real
  {
    if rs == [] then 0.0
    else
      var r := rs[|rs| - 1];
      WinningProfit(rs[..|rs| - 1]) + (if Won(r) then r.kellyUnits * (r.odds - 1.0) else 0.0)
  }

  /** Units staked on the rows that did not win. */
  function LosingStake(rs: seq<Row>): real
  {
    if rs == [] then 0.0
    else
      var r := rs[|rs| - 1];
      LosingStake(rs[..|rs| - 1]) + (if Won(r) then 0.0 else r.kellyUnits)
  }

  /** The profit is the winners' profit minus the losers' stakes. */
  lemma {:induction false} RoiSplit(rs: seq<Row>)
    ensures Roi(rs) == WinningProfit(rs) - LosingStake(rs)
  {
    if rs != [] {
      RoiSplit(rs[..|rs| - 1]);
    }
  }

  /** With non-negative stakes the loss is at most the total staked, and with no winner it is
      exactly that. */
  lemma {:induction false} RoiBounds(rs: seq<Row>)
    requires forall i :: 0 <= i < |rs| ==> rs[i].kellyUnits >= 0.0 && rs[i].odds >= 1.0
    ensures Roi(rs) >= -Staked(rs)
    ensures Wins(rs) == 0 ==> Roi(rs) == -Staked(rs)
  {
    if rs != [] {
      var p := rs[..|rs| - 1];
      assert forall i :: 0 <= i < |p| ==> p[i] == rs[i];
      RoiBounds(p);
      var r := rs[|rs| - 1];
      if Won(r) {
        assert r.kellyUnits * (r.odds - 1.0) >= 0.0;
      }
    }
  }

  /** The loop of app.py:508-513 and app.py:550-555. */
  method TotalProfit(rs: seq<Row>) returns (roi: real)
    ensures roi == Roi(rs)
  {
    roi := 0.0;
    for i := 0 to |rs|
      invariant roi == Roi(rs[..i])
    {
      assert rs[..i + 1][..i] == rs[..i];
      var r := rs[i];
      if r.win == Some(true) {
        roi := roi + r.kellyUnits * (r.odds - 1.0);
      } else {
        roi := roi - r.kellyUnits;
      }
    }
    assert rs[..|rs|] == rs;
  }

  /** `part` out of `whole` as a percentage. */
  function Percent(part: nat, whole: nat): (p: real)
    requires part <= whole && whole > 0
    ensures 0.0 <= p <= 100.0
    ensures p == 100.0 <==> part == whole
    ensures p * whole as real == 100.0 * part as real
  {
    var q := part as real / whole as real;
    assert q * whole as real == part as real;
    assert q <= 1.0;
    q * 100.0
  }

  /** A profit in units as a percentage of the bankroll. */
  function OfBankroll(roi: real, bankroll: real): (p: real)
    requires bankroll != 0.0
    ensures p * bankroll == roi * 100.0
  {
    assert roi / bankroll * bankroll == roi;
    roi / bankroll * 100.0
  }

  /** The snapshot update_performance records for a non-empty set of resulted rows: their
      number, the winners, the hit rate in percent, and the profit in units and as a
      percentage of the bankroll. */
  function Performance(rs: seq<Row>, bankroll: real): (p: Snapshot)
    requires rs != [] && bankroll != 0.0
    ensures p.totalTips == |rs| && p.wins == Wins(rs) && p.wins <= p.totalTips
    ensures 0.0 <= p.accuracy <= 100.0
    ensures p.accuracy == 100.0 <==> p.wins == p.totalTips
    ensures p.accuracy * p.totalTips as real == 100.0 * p.wins as real
    ensures p.roi == Roi(rs) && p.profit == p.roi
    ensures p.roiPct * bankroll == p.roi * 100.0
  {
    var wins := Wins(rs);
    var total := |rs|;
    var roi := Roi(rs);
    Snapshot(total, wins, Percent(wins, total), roi, OfBankroll(roi, bankroll), roi)
  }

  /** At most the last `n` snapshots, newest first. */
  function LatestFirst(h: seq<Snapshot>, n: nat): (r: seq<Snapshot>)
    ensures |r| == if |h| < n then |h| else n
    ensures forall i :: 0 <= i < |r| ==> r[i] == h[|h| - 1 - i]
  {
    if n == 0 || h == [] then []
    else [h[|h| - 1]] + LatestFirst(h[..|h| - 1], n - 1)
  }

  /** The hit rate of the rows in percent; 0 when there are none. */
  function HitRate(rs: seq<Row>): (a: real)
    ensures 0.0 <= a <= 100.0
    ensures rs == [] ==> a == 0.0
    ensures rs != [] ==> (a == 100.0 <==> Wins(rs) == |rs|)
    ensures a * |rs| as real == 100.0 * Wins(rs) as real
  {
    if rs == [] then 0.0 else Percent(Wins(rs), |rs|)
  }

  /** The summary get_performance builds from the table and the history. The source counts
      wins only when some row is resulted; with none, Wins is 0 anyway. */
  function Report(rows: seq<Row>, history: seq<Snapshot>, bankroll: real): (s: Summary)
    requires bankroll != 0.0
    ensures s.totalTips == |rows| && s.pending + s.resulted == s.totalTips
    ensures s.resulted == |ResultedRows(rows)| && s.pending == PendingCount(rows)
    ensures s.wins == Wins(ResultedRows(rows))
    ensures s.roi == Roi(ResultedRows(rows))
    ensures s.wins <= s.resulted
    ensures s.accuracy == HitRate(ResultedRows(rows)) && 0.0 <= s.accuracy <= 100.0
    ensures s.resulted == 0 ==> s.accuracy == 0.0 && s.roi == 0.0
    ensures s.roiPct == OfBankroll(s.roi, bankroll)
    ensures s.bankroll == bankroll
    ensures |s.history| == if |history| < 30 then |history| else 30
    ensures forall i :: 0 <= i < |s.history| ==> s.history[i] == history[|history| - 1 - i]
  {
    var rs := ResultedRows(rows);
    StatusCountsAddUp(rows);
    Summary(|rows|, PendingCount(rows), |rs|, Wins(rs), HitRate(rs), Roi(rs),
            OfBankroll(Roi(rs), bankroll), bankroll, LatestFirst(history, 30))
  }

  /** Number of rows the settlement loop updates. */
  function DueCount(rows: seq<Row>, results: map<Key, MatchResult>): (n: nat)
    ensures n <= PendingCount(rows)
  {
    if rows == [] then 0
    else DueCount(rows[..|rows| - 1], results) + (if Due(rows[|rows| - 1], results) then 1 else 0)
  }

  /** Settlement moves exactly the due rows from pending to resulted. */
  lemma {:induction false} SettleResultedCount(rows: seq<Row>, results: map<Key, MatchResult>)
    ensures |ResultedRows(SettleAll(rows, results))| == |ResultedRows(rows)| + DueCount(rows, results)
    ensures PendingCount(SettleAll(rows, results)) == PendingCount(rows) - DueCount(rows, results)
  {
    if rows != [] {
      var p := rows[..|rows| - 1];
      SettleResultedCount(p, results);
      var s := SettleAll(rows, results);
      assert s[..|rows| - 1] == SettleAll(p, results);
      var last := rows[|rows| - 1];
      assert s[|rows| - 1] == SettleRow(last, results);
      assert SettleRow(last, results).status.Resulted? <==> last.status.Resulted? || Due(last, results);
    }
  }

  /** The tips table and the performance table of one database. */
  class TipStore {
    var rows: seq<Row>
    var history: seq<Snapshot>

    /** Row ids are distinct, as the table's autoincrement key makes them. */
    ghost predicate Valid()
      reads this
    {
      DistinctIds(rows)
    }

    /** A database holding `initial` tips and the performance history `past`, oldest first. */
    constructor(initial: seq<Row>, past: seq<Snapshot>)
      requires DistinctIds(initial)
      ensures Valid()
      ensures rows == initial && history == past
    {
      rows := initial;
      history := past;
    }

    /** The update loop of app.py:460-481: each pending row with a result is settled by an
        update of the rows with its id, which the distinct ids make an update of that row. */
    method Settle(results: map<Key, MatchResult>)
      requires Valid()
      modifies this
      ensures Valid()
      ensures rows == SettleAll(old(rows), results)
      ensures history == old(history)
    {
      ghost var before := rows;
      for i := 0 to |rows|
        invariant |rows| == |before| && history == old(history)
        invariant forall j :: 0 <= j < i ==> rows[j] == SettleRow(before[j], results)
        invariant forall j :: i <= j < |rows| ==> rows[j] == before[j]
        invariant Valid()
      {
        var r := rows[i];
        if r.status == Pending && (r.homeTeam, r.awayTeam) in results {
          WhereIdIsPositional(rows, i, SettleRow(r, results));
          rows := UpdateWhereId(rows, r.id, SettleRow(r, results));
        }
      }
    }

    /** BettingApp.update_results: `feed` is yesterday's match list, None when the request
        does not answer 200. Settlement happens only when the feed can be read to the end;
        the performance snapshot is taken in every case. */
    method UpdateResults(feed: Option<seq<FeedMatch>>, bankroll: real)
      requires Valid() && bankroll != 0.0
      modifies this
      ensures Valid()
      ensures feed.None? || Results(feed.value).None? ==> rows == old(rows)
      ensures feed.Some? && Results(feed.value).Some? ==> rows == SettleAll(old(rows), Results(feed.value).value)
      ensures history == old(history) + if ResultedRows(rows) == [] then [] else [Performance(ResultedRows(rows), bankroll)]
    {
      if feed.Some? {
        var results := CollectResults(feed.value);
        if results.Some? {
          Settle(results.value);
        }
      }
      UpdatePerformance(bankroll);
    }

    /** BettingApp.update_performance: with at least one resulted row, appends a snapshot
        of them to the history; otherwise changes nothing. */
    method UpdatePerformance(bankroll: real)
      requires bankroll != 0.0 || ResultedRows(rows) == []
      modifies this
      ensures rows == old(rows)
      ensures history == old(history) + if ResultedRows(rows) == [] then [] else [Performance(ResultedRows(rows), bankroll)]
    {
      var resulted := ResultedRows(rows);
      if resulted == [] {
        return;
      }
      var wins := Wins(resulted);
      var total := |resulted|;
      var accuracy := Percent(wins, total);
      var roi := TotalProfit(resulted);
      var roiPct := OfBankroll(roi, bankroll);
      history := history + [Snapshot(total, wins, accuracy, roi, roiPct, roi)];
    }

    /** BettingApp.get_performance. */
    method GetPerformance(bankroll: real) returns (s: Summary)
      requires bankroll != 0.0
      ensures s == Report(rows, history, bankroll)
    {
      var resulted := ResultedRows(rows);
      var total := |resulted|;
      var wins := Wins(resulted);
      var pending := PendingCount(rows);
      var roi := TotalProfit(resulted);
      s := Summary(|rows|, pending, total, wins, HitRate(resulted),
                   roi, OfBankroll(roi, bankroll), bankroll, LatestFirst(history, 30));
    }
  }

  /** As written, the win test reads position 14 of the row, the creation timestamp, which
      is truthy whenever it is non-empty. */
  predicate WonAsWritten(r: Row)
  {
    r.createdAt != ""
  }

  function WinsAsWritten(rs: seq<Row>): (n: nat)
    ensures n <= |rs|
  {
    if rs == [] then 0
    else WinsAsWritten(rs[..|rs| - 1]) + (if WonAsWritten(rs[|rs| - 1]) then 1 else 0)
  }

  /** Every stored tip carries a timestamp, so as written every resulted tip is a win. */
  lemma {:induction false} AsWrittenEveryTipWins(rs: seq<Row>)
    requires forall i :: 0 <= i < |rs| ==> rs[i].createdAt != ""
    ensures WinsAsWritten(rs) == |rs|
  {
    if rs != [] {
      AsWrittenEveryTipWins(rs[..|rs| - 1]);
    }
  }

  /** Profit of one row as written: the same win test on position 14. */
  function ProfitAsWritten(r: Row): real
  {
    if WonAsWritten(r) then r.kellyUnits * (r.odds - 1.0) else -r.kellyUnits
  }

  function RoiAsWritten(rs: seq<Row>): real
  {
    if rs == [] then 0.0 else RoiAsWritten(rs[..|rs| - 1]) + ProfitAsWritten(rs[|rs| - 1])
  }

  /** What every stake would return if it won: units times (odds - 1), summed. */
  function Returns(rs: seq<Row>): real
  {
    if rs == [] then 0.0
    else
      var r := rs[|rs| - 1];
      Returns(rs[..|rs| - 1]) + r.kellyUnits * (r.odds - 1.0)
  }

  /** As written, the profit books every resulted stake as a winning one. */
  lemma {:induction false} AsWrittenRoiBooksEveryStakeWon(rs: seq<Row>)
    requires forall i :: 0 <= i < |rs| ==> rs[i].createdAt != ""
    ensures RoiAsWritten(rs) == Returns(rs)
  {
    if rs != [] {
      assert forall i :: 0 <= i < |rs| - 1 ==> rs[..|rs| - 1][i] == rs[i];
      AsWrittenRoiBooksEveryStakeWon(rs[..|rs| - 1]);
    }
  }

  /** A settled losing tip counts as a win as written, and not by its win flag: its lost
      20 units are booked as a 60-unit profit. */
  lemma AsWrittenCountsLossAsWin()
    ensures var row := Row(1, "Arsenal", "Chelsea", "Premier League", "2026-10-10", "Away Win", Low,
                            12.0, 0.02, 20.0, 4.0, Resulted, Some(Home), Some(Score(2, 1)),
                            "2026-10-09T12:00:00", Some(false));
            && WinsAsWritten([row]) == 1 && Wins([row]) == 0
            && RoiAsWritten([row]) == 60.0 && Roi([row]) == -20.0
  {
  }
}

=== FILE: tips.dfy ===
/** The tip generator, BettingApp.generate_tips (app.py:331-394): one tip per fixture
    whose best edge clears the threshold, then the tips sorted by decreasing edge. */
module TipGenerator {
  import opened Types
  import opened Pricing

  /** What the generator needs of a fixture it does not skip: no zero probability
      (app.py:351 divides by it) and, when a tip is emitted, odds other than 1 on the
      chosen bet (app.py:373 divides by odds - 1). */
  predicate Computable(m: Match, cfg: Config)
  {
    m.homeOdds != 0.0 ==>
      && m.homeProb != 0.0 && m.drawProb != 0.0 && m.awayProb != 0.0
      && (MaxEdge(m) > -100.0 && MaxEdge(m) >= cfg.minEdge ==> BetOn(m, FirstBestOutcome(m)).odds != 1.0)
  }

  /** Largest edge of the three outcomes. */
  function MaxEdge(m: Match): real
    requires m.homeProb != 0.0 && m.drawProb != 0.0 && m.awayProb != 0.0
  {
    var bs := Bets(m);
    Max(Edge(bs[0]), Max(Edge(bs[1]), Edge(bs[2])))
  }

  /** The first outcome, in the order home, draw, away, whose edge is the largest. */
  function FirstBestOutcome(m: Match): Outcome
    requires m.homeProb != 0.0 && m.drawProb != 0.0 && m.awayProb != 0.0
  {
    var bs := Bets(m);
    if Edge(bs[0]) == MaxEdge(m) then Home
    else if Edge(bs[1]) == MaxEdge(m) then Draw
    else Away
  }

  /** The candidate bet on outcome `o`. */
  function BetOn(m: Match, o: Outcome): Bet
  {
    Bets(m)[match o case Home => 0 case Draw => 1 case Away => 2]
  }

  /** The scan of app.py:346-358 over the three bets ends on the first outcome with the
      largest edge, and on none exactly when no edge beats its starting value -100. */
  lemma ScanPicksFirstBest(m: Match)
    requires m.homeProb != 0.0 && m.drawProb != 0.0 && m.awayProb != 0.0
    ensures Priceable(Bets(m))
    ensures BestBet(Bets(m)).Some? <==> MaxEdge(m) > -100.0
    ensures BestBet(Bets(m)).Some? ==> Bets(m)[BestBet(Bets(m)).value] == BetOn(m, FirstBestOutcome(m))
    ensures Edge(BetOn(m, FirstBestOutcome(m))) == MaxEdge(m)
  {
    var bs := Bets(m);
    assert Priceable(bs) by {
      forall j | 0 <= j < |bs| ensures bs[j].prob != 0.0 {
        assert j == 0 || j == 1 || j == 2;
      }
    }
  }

  /** The tip built for a chosen bet (app.py:363-387), before rounding. */
  function NewTip(m: Match, b: Bet, edge: real, cfg: Config): Tip
    requires b.odds != 1.0
  {
    var confidence := Classify(edge, b.prob);
    var kelly := Stake(b.odds, b.prob, confidence, cfg);
    Tip(m, PredictionLabel(b.outcome), confidence, edge, kelly * 100.0, kelly * cfg.bankroll, b.odds,
        Pending, None, None, None)
  }

  /** Tip t stakes the capped, tier-scaled Kelly fraction of bet b: that fraction times 100
      as kelly_pct and times the bankroll as kelly_units. */
  predicate StakesKelly(t: Tip, b: Bet, cfg: Config)
  {
    && b.odds != 1.0
    && t.kellyPct == 100.0 * Stake(b.odds, b.prob, t.confidence, cfg)
    && t.kellyUnits == Stake(b.odds, b.prob, t.confidence, cfg) * cfg.bankroll
  }

  /** The body of the generator's loop for one fixture. A tip appears exactly when the odds
      are known, the best edge beats -100 (the scan's starting value) and reaches the threshold;
      it is on the first outcome with the largest edge, and stakes that bet's capped Kelly
      fraction. */
  function TipFor(m: Match, cfg: Config): (r: Option<Tip>)
    requires Computable(m, cfg)
    ensures m.homeOdds != 0.0 ==>
      (r.Some? <==> MaxEdge(m) > -100.0 && MaxEdge(m) >= cfg.minEdge)
    ensures r.Some? ==>
      && m.homeOdds != 0.0
      && r.value.fixture == m
      && r.value.edge == MaxEdge(m) >= cfg.minEdge
      && r.value.prediction == PredictionLabel(FirstBestOutcome(m))
      && r.value.odds == BetOn(m, FirstBestOutcome(m)).odds
      && r.value.confidence == Classify(r.value.edge, BetOn(m, FirstBestOutcome(m)).prob)
      && r.value.status == Pending && r.value.actualOutcome.None? && r.value.score.None? && r.value.win.None?
    ensures r.Some? ==> StakesKelly(r.value, BetOn(m, FirstBestOutcome(m)), cfg)
    ensures m.homeOdds == 0.0 ==> r.None?
  {
    if m.homeOdds == 0.0 then None
    else
      ScanPicksFirstBest(m);
      var bs := Bets(m);
      match BestBet(bs)
      case None => None
      case Some(k) =>
        var b := bs[k];
        var edge := Edge(b);
        if edge >= cfg.minEdge then
          Some(NewTip(m, b, edge, cfg))
        else None
  }

  /** A tip staking the capped Kelly fraction of a bet has its stake in the capped range:
      [0, 100 maxKellyPct] percent and, on a non-negative bankroll, [0, maxKellyPct bankroll]
      units. */
  lemma StakeBounds(t: Tip, b: Bet, cfg: Config)
    requires StakesKelly(t, b, cfg)
    ensures 0.0 <= t.kellyPct
    ensures cfg.maxKellyPct >= 0.0 ==> t.kellyPct <= 100.0 * cfg.maxKellyPct
    ensures cfg.bankroll >= 0.0 ==> 0.0 <= t.kellyUnits
    ensures cfg.bankroll >= 0.0 && cfg.maxKellyPct >= 0.0 ==> t.kellyUnits <= cfg.maxKellyPct * cfg.bankroll
  {
    var s := Stake(b.odds, b.prob, t.confidence, cfg);
    if cfg.bankroll >= 0.0 && cfg.maxKellyPct >= 0.0 {
      assert s * cfg.bankroll <= cfg.maxKellyPct * cfg.bankroll;
    }
  }

  /** The stake of an emitted tip lies in the capped range. */
  lemma TipStakeInRange(m: Match, cfg: Config)
    requires Computable(m, cfg) && TipFor(m, cfg).Some?
    ensures 0.0 <= TipFor(m, cfg).value.kellyPct
    ensures cfg.maxKellyPct >= 0.0 ==> TipFor(m, cfg).value.kellyPct <= 100.0 * cfg.maxKellyPct
    ensures cfg.bankroll >= 0.0 ==> 0.0 <= TipFor(m, cfg).value.kellyUnits
    ensures cfg.bankroll >= 0.0 && cfg.maxKellyPct >= 0.0 ==>
      TipFor(m, cfg).value.kellyUnits <= cfg.maxKellyPct * cfg.bankroll
  {
    StakeBounds(TipFor(m, cfg).value, BetOn(m, FirstBestOutcome(m)), cfg);
  }

  /** Every fixture of the list can be processed. */
  predicate AllComputable(ms: seq<Match>, cfg: Config)
  {
    forall i :: 0 <= i < |ms| ==> Computable(ms[i], cfg)
  }

  /** The tips the loop of app.py:335-389 has appended after the first |ms| fixtures, in
      fixture order. */
  function Candidates(ms: seq<Match>, cfg: Config): (ts: seq<Tip>)
    requires AllComputable(ms, cfg)
    ensures |ts| <= |ms|
  {
    if ms == [] then []
    else
      var init := ms[..|ms| - 1];
      assert forall i :: 0 <= i < |init| ==> init[i] == ms[i];
      var rest := Candidates(init, cfg);
      match TipFor(ms[|ms| - 1], cfg)
      case None => rest
      case Some(t) => rest + [t]
  }

  /** Each candidate comes from one fixture that yields that tip. */
  lemma {:induction false} CandidatesFromFixtures(ms: seq<Match>, cfg: Config)
    requires AllComputable(ms, cfg)
    ensures forall t :: t in Candidates(ms, cfg) ==> exists i :: 0 <= i < |ms| && TipFor(ms[i], cfg) == Some(t)
  {
    if ms != [] {
      var init := ms[..|ms| - 1];
      assert forall i :: 0 <= i < |init| ==> init[i] == ms[i];
      CandidatesFromFixtures(init, cfg);
      forall t | t in Candidates(ms, cfg)
        ensures exists i :: 0 <= i < |ms| && TipFor(ms[i], cfg) == Some(t)
      {
        if t in Candidates(init, cfg) {
          var i :| 0 <= i < |init| && TipFor(init[i], cfg) == Some(t);
          assert TipFor(ms[i], cfg) == Some(t);
        } else {
          assert TipFor(ms[|ms| - 1], cfg) == Some(t);
        }
      }
    }
  }

  /** Each fixture that yields a tip contributes it. */
  lemma {:induction false} FixturesReachCandidates(ms: seq<Match>, cfg: Config)
    requires AllComputable(ms, cfg)
    ensures forall i :: 0 <= i < |ms| && TipFor(ms[i], cfg).Some? ==> TipFor(ms[i], cfg).value in Candidates(ms, cfg)
  {
    if ms != [] {
      var init := ms[..|ms| - 1];
      assert forall i :: 0 <= i < |init| ==> init[i] == ms[i];
      FixturesReachCandidates(init, cfg);
      forall i | 0 <= i < |ms| && TipFor(ms[i], cfg).Some?
        ensures TipFor(ms[i], cfg).value in Candidates(ms, cfg)
      {
        if i < |ms| - 1 {
          assert TipFor(init[i], cfg).value in Candidates(init, cfg);
        }
      }
    }
  }

  /** Every emitted tip reaches the threshold, and was emitted for a fixture with known odds. */
  lemma CandidatesMeetThreshold(ms: seq<Match>, cfg: Config)
    requires AllComputable(ms, cfg)
    ensures forall t :: t in Candidates(ms, cfg) ==> t.edge >= cfg.minEdge && t.fixture.homeOdds != 0.0
  {
    CandidatesFromFixtures(ms, cfg);
    forall t | t in Candidates(ms, cfg)
      ensures t.edge >= cfg.minEdge && t.fixture.homeOdds != 0.0
    {
      var i :| 0 <= i < |ms| && TipFor(ms[i], cfg) == Some(t);
    }
  }

  /** Non-increasing edge from left to right. */
  predicate SortedByEdge(s: seq<Tip>)
  {
    forall i, j :: 0 <= i < j < |s| ==> s[i].edge >= s[j].edge
  }

  /** Inserts `x` into `s` after the last element whose edge is at least x's: the
      stable placement of Python's list.sort. */
  function InsertByEdge(s: seq<Tip>, x: Tip): (r: seq<Tip>)
    ensures |r| == |s| + 1
  {
    if s == [] || s[|s| - 1].edge >= x.edge then s + [x]
    else InsertByEdge(s[..|s| - 1], x) + [s[|s| - 1]]
  }

  /** Insertion adds x and keeps every element of s. */
  lemma {:induction false} InsertPermutes(s: seq<Tip>, x: Tip)
    ensures multiset(InsertByEdge(s, x)) == multiset(s) + multiset{x}
  {
    if s == [] || s[|s| - 1].edge >= x.edge {
    } else {
      var init, last := s[..|s| - 1], s[|s| - 1];
      InsertPermutes(init, x);
      assert s == init + [last];
    }
  }

  /** Insertion into a sorted list keeps it sorted. */
  lemma {:induction false} InsertKeepsSorted(s: seq<Tip>, x: Tip)
    requires SortedByEdge(s)
    ensures SortedByEdge(InsertByEdge(s, x))
  {
    if s == [] || s[|s| - 1].edge >= x.edge {
    } else {
      var init, last := s[..|s| - 1], s[|s| - 1];
      InsertKeepsSorted(init, x);
      var r := InsertByEdge(init, x);
      InsertPermutes(init, x);
      forall k | 0 <= k < |r| ensures r[k].edge >= last.edge {
        assert r[k] in multiset(r);
        if r[k] != x {
          assert r[k] in multiset(init);
          var k' :| 0 <= k' < |init| && init[k'] == r[k];
        }
      }
      assert InsertByEdge(s, x) == r + [last];
    }
  }

  /** Stable sort by decreasing edge: insertion sort, fixture order kept among equal edges. */
  function SortByEdge(s: seq<Tip>): (r: seq<Tip>)
    ensures |r| == |s|
  {
    if s == [] then []
    else InsertByEdge(SortByEdge(s[..|s| - 1]), s[|s| - 1])
  }

  /** The sorted list is ordered by non-increasing edge and is a permutation of its input. */
  lemma {:induction false} SortByEdgeCorrect(s: seq<Tip>)
    ensures SortedByEdge(SortByEdge(s))
    ensures multiset(SortByEdge(s)) == multiset(s)
  {
    if s != [] {
      var init, last := s[..|s| - 1], s[|s| - 1];
      SortByEdgeCorrect(init);
      InsertKeepsSorted(SortByEdge(init), last);
      InsertPermutes(SortByEdge(init), last);
      assert s == init + [last];
    }
  }

  /** An already sorted list is left as it is: sorting is idempotent. */
  lemma {:induction false} SortSortedIsIdentity(s: seq<Tip>)
    requires SortedByEdge(s)
    ensures SortByEdge(s) == s
  {
    if s != [] {
      var init := s[..|s| - 1];
      assert SortedByEdge(init);
      SortSortedIsIdentity(init);
      assert s == init + [s[|s| - 1]];
    }
  }

  /** The tips of `s` whose edge is `e`, in their order in `s`. */
  function WithEdge(s: seq<Tip>, e: real): seq<Tip>
  {
    if s == [] then []
    else WithEdge(s[..|s| - 1], e) + (if s[|s| - 1].edge == e then [s[|s| - 1]] else [])
  }

  /** Insertion puts x after every element with the same edge. */
  lemma {:induction false} InsertWithEdge(s: seq<Tip>, x: Tip, e: real)
    ensures WithEdge(InsertByEdge(s, x), e) == WithEdge(s, e) + (if x.edge == e then [x] else [])
  {
    if s == [] || s[|s| - 1].edge >= x.edge {
      assert (s + [x])[..|s|] == s;
    } else {
      var init, last := s[..|s| - 1], s[|s| - 1];
      InsertWithEdge(init, x, e);
      var r := InsertByEdge(init, x);
      assert (r + [last])[..|r|] == r;
    }
  }

  /** The sort is stable, as Python's list.sort is: for every edge value, the tips with that
      edge come out in the order they went in. */
  lemma {:induction false} SortByEdgeStable(s: seq<Tip>, e: real)
    ensures WithEdge(SortByEdge(s), e) == WithEdge(s, e)
  {
    if s != [] {
      var init, last := s[..|s| - 1], s[|s| - 1];
      SortByEdgeStable(init, e);
      InsertWithEdge(SortByEdge(init), last, e);
    }
  }

  /** Where insertion puts x: after the first j elements, when those end with an edge at
      least x's and all later ones have a smaller edge. */
  lemma {:induction false} InsertAt(p: seq<Tip>, x: Tip, j: nat)
    requires j <= |p| && (j == 0 || p[j - 1].edge >= x.edge)
    requires forall k :: j <= k < |p| ==> p[k].edge < x.edge
    ensures InsertByEdge(p, x) == p[..j] + [x] + p[j..]
  {
    if j == |p| {
      assert p[..j] == p && p[j..] == [];
    } else {
      var init := p[..|p| - 1];
      InsertAt(init, x, j);
      assert init[..j] == p[..j];
      assert p[j..] == init[j..] + [p[|p| - 1]];
    }
  }

  /** tips.sort(key=lambda x: -x.edge) (app.py:392), in place: insertion sort. */
  method SortTipsByEdge(a: array<Tip>)
    modifies a
    ensures a[..] == SortByEdge(old(a[..]))
  {
    ghost var s := a[..];
    for i := 0 to a.Length
      invariant a[..i] == SortByEdge(s[..i])
      invariant forall k :: i <= k < a.Length ==> a[k] == s[k]
    {
      ghost var p := a[..i];
      InsertLast(a, i);
      SortStep(s, i, p, s[i]);
    }
    assert a[..] == a[..a.Length];
    assert s[..a.Length] == s;
  }

  /** Inserts a[i] into the sorted prefix a[..i], shifting the smaller-edged elements right. */
  method InsertLast(a: array<Tip>, i: nat)
    requires i < a.Length
    modifies a
    ensures a[..i + 1] == InsertByEdge(old(a[..i]), old(a[i]))
    ensures forall k :: i < k < a.Length ==> a[k] == old(a[k])
  {
    var x := a[i];
    ghost var p := a[..i];
    var j := i;
    while j > 0 && a[j - 1].edge < x.edge
      invariant 0 <= j <= i
      invariant forall k :: 0 <= k < j ==> a[k] == p[k]
      invariant forall k :: j < k <= i ==> a[k] == p[k - 1]
      invariant forall k :: i < k < a.Length ==> a[k] == old(a[k])
      invariant forall k :: j <= k < i ==> p[k].edge < x.edge
    {
      a[j] := a[j - 1];
      j := j - 1;
    }
    a[j] := x;
    InsertedAt(a[..], p, x, i, j);
  }

  /** The prefix the inner loop leaves: p's first j elements, then x, then the rest of p. */
  lemma PlacedAt(b: seq<Tip>, p: seq<Tip>, x: Tip, i: nat, j: nat)
    requires j <= i < |b| && |p| == i
    requires forall k :: 0 <= k < j ==> b[k] == p[k]
    requires b[j] == x
    requires forall k :: j < k <= i ==> b[k] == p[k - 1]
    ensures b[..i + 1] == p[..j] + [x] + p[j..]
  {
    var q := p[..j] + [x] + p[j..];
    forall k | 0 <= k <= i
      ensures b[k] == q[k]
    {
      if k > j {
        assert q[k] == p[j..][k - j - 1];
      }
    }
  }

  /** The array the inner loop leaves holds the insertion of x into p. */
  lemma InsertedAt(b: seq<Tip>, p: seq<Tip>, x: Tip, i: nat, j: nat)
    requires j <= i < |b| && |p| == i
    requires forall k :: 0 <= k < j ==> b[k] == p[k]
    requires b[j] == x
    requires forall k :: j < k <= i ==> b[k] == p[k - 1]
    requires j == 0 || p[j - 1].edge >= x.edge
    requires forall k :: j <= k < i ==> p[k].edge < x.edge
    ensures b[..i + 1] == InsertByEdge(p, x)
  {
    PlacedAt(b, p, x, i, j);
    InsertAt(p, x, j);
  }

  /** One round of the outer loop sorts one more element. */
  lemma SortStep(s: seq<Tip>, i: nat, p: seq<Tip>, x: Tip)
    requires i < |s| && p == SortByEdge(s[..i]) && x == s[i]
    ensures SortByEdge(s[..i + 1]) == InsertByEdge(p, x)
  {
    assert s[..i + 1][..i] == s[..i];
  }

  /** BettingApp.generate_tips: the candidate tips of the fixtures, sorted by decreasing edge. */
  method GenerateTips(matches: seq<Match>, cfg: Config) returns (tips: seq<Tip>)
    requires AllComputable(matches, cfg)
    ensures tips == SortByEdge(Candidates(matches, cfg))
    ensures |tips| <= |matches|
    ensures SortedByEdge(tips)
    ensures multiset(tips) == multiset(Candidates(matches, cfg))
    ensures forall t :: t in tips ==> t.edge >= cfg.minEdge && t.fixture.homeOdds != 0.0
  {
    var built: seq<Tip> := [];
    for i := 0 to |matches|
      invariant built == Candidates(matches[..i], cfg)
    {
      assert matches[..i + 1][..i] == matches[..i];
      var m := matches[i];
      if m.homeOdds == 0.0 {
        assert TipFor(m, cfg).None?;
        continue;
      }
      ScanPicksFirstBest(m);
      var bs := Bets(m);
      var best, bestEdge := ChooseBet(bs);
      if best.Some? && bestEdge >= cfg.minEdge {
        var tip := NewTip(m, bs[best.value], bestEdge, cfg);
        assert TipFor(m, cfg) == Some(tip);
        built := built + [tip];
      }
    }
    assert matches[..|matches|] == matches;
    var a := new Tip[|built|](k requires 0 <= k < |built| => built[k]);
    assert a[..] == built;
    SortTipsByEdge(a);
    tips := a[..];
    SortByEdgeCorrect(built);
    CandidatesMeetThreshold(matches, cfg);
    forall t | t in tips ensures t.edge >= cfg.minEdge && t.fixture.homeOdds != 0.0 {
      assert t in multiset(tips);
    }
  }

  /** A fixture priced 60/25/15 with odds 2.0/3.5/5.0 under the default configuration: the
      home win is the only bet with value (edge 20), which makes a MEDIUM tip staking
      0.6 - 0.4 = 0.2 Kelly scaled by 0.35 and 0.7, that is 4.9% of the bankroll or 49 units. */
  lemma MediumHomeTip()
    ensures var m := Match("Arsenal", "Chelsea", "Premier League", "2026-10-10", "15:00",
                           60.0, 25.0, 15.0, 2.0, 3.5, 5.0);
            && Computable(m, Defaults)
            && TipFor(m, Defaults).Some?
            && TipFor(m, Defaults).value.prediction == "Home Win"
            && TipFor(m, Defaults).value.confidence == Medium
            && TipFor(m, Defaults).value.edge == 20.0
            && TipFor(m, Defaults).value.kellyPct == 4.9
            && TipFor(m, Defaults).value.kellyUnits == 49.0
  {
    var m := Match("Arsenal", "Chelsea", "Premier League", "2026-10-10", "15:00",
                   60.0, 25.0, 15.0, 2.0, 3.5, 5.0);
    var bs := Bets(m);
    assert Edge(bs[0]) == 20.0 && Edge(bs[1]) == -12.5 && Edge(bs[2]) == -25.0;
    assert bs[..1][..0] == [] && bs[..2][..1] == bs[..1] && bs[..3][..2] == bs[..2] && bs[..3] == bs;
    assert BestBet(bs[..1]) == Some(0);
    assert BestBet(bs[..2]) == Some(0);
    assert BestBet(bs) == Some(0);
    assert KellyFraction(2.0, 60.0) == 0.2;
  }
}

=== FILE: types.dfy ===
/** Records shared by the tip pipeline: fixtures, tips, outcome codes and the
    configuration knobs of the betting application (app.py). */
module Types {

  datatype Option<T> = None | Some(value: T)

  /** The three match outcomes, which the application codes "1", "X" and "2". */
  datatype Outcome = Home | Draw | Away

  /** Ordinal confidence tier of a tip. */
  datatype Confidence = High | Medium | Low

  /** Lifecycle of a stored tip: pending until its result is known, then resulted for good. */
  datatype Status = Pending | Resulted

  /** A (home team, away team) pair: how fixtures, odds and results are matched up. */
  type Key = (string, string)

  /** A final full-time score, home goals first. */
  datatype Score = Score(home: int, away: int)

  /** The four knobs the pipeline reads from the configuration dictionary. */
  datatype Config = Config(minEdge: real, kellyFraction: real, maxKellyPct: real, bankroll: real)

  /** The values the application starts with. */
  const Defaults: Config := Config(10.0, 0.35, 0.075, 1000.0)

  /** A fixture. Probabilities are percentages; an odds value of 0 means "not fetched". */
  datatype Match = Match(
    homeTeam: string, awayTeam: string, league: string, date: string, time: string,
    homeProb: real, drawProb: real, awayProb: real,
    homeOdds: real, drawOdds: real, awayOdds: real)

  /** A tip as the generator emits it, before it is stored. */
  datatype Tip = Tip(
    fixture: Match, prediction: string, confidence: Confidence,
    edge: real, kellyPct: real, kellyUnits: real, odds: real,
    status: Status, actualOutcome: Option<Outcome>, score: Option<Score>, win: Option<bool>)

  /** The human-readable prediction stored with a tip. */
  function PredictionLabel(o: Outcome): string
  {
    match o
    case Home => "Home Win"
    case Draw => "Draw"
    case Away => "Away Win"
  }

  /** Reads a stored prediction back as an outcome; anything unrecognised counts as a home win. */
  function OutcomeOfPrediction(prediction: string): (o: Outcome)
    ensures prediction != PredictionLabel(Draw) && prediction != PredictionLabel(Away) ==> o == Home
    ensures o != Home ==> prediction == PredictionLabel(o)
  {
    if prediction == "Home Win" then Home
    else if prediction == "Draw" then Draw
    else if prediction == "Away Win" then Away
    else Home
  }

  /** Writing a prediction and reading it back gives the same outcome. */
  lemma PredictionRoundTrip(o: Outcome)
    ensures OutcomeOfPrediction(PredictionLabel(o)) == o
  {
    assert PredictionLabel(Draw) != PredictionLabel(Home) by { assert "Draw"[0] != "Home Win"[0]; }
    assert PredictionLabel(Away) != PredictionLabel(Home) by { assert "Away Win"[0] != "Home Win"[0]; }
  }

  /** The three labels are distinct, so the label determines the outcome. */
  lemma PredictionLabelInjective(o1: Outcome, o2: Outcome)
    ensures PredictionLabel(o1) == PredictionLabel(o2) <==> o1 == o2
  {
    PredictionRoundTrip(o1);
    PredictionRoundTrip(o2);
  }

  function Max(a: real, b: real): real { if a >= b then a else b }

  function Min(a: real, b: real): real { if a <= b then a else b }
}
